=== FILE: README.md ===
# Science Simplifier — a Dafny model of the upload-to-artifact pipeline

The Science Simplifier is a small Flask application (`app.py`). A user uploads a scientific paper
as a PDF or a plain-text file. The application:

- extracts the text;
- refuses papers with too little text;
- has a language model rewrite the paper for a general audience;
- turns the rewritten Markdown-ish text into an HTML page, or a PDF of that page;
- stores the artifact under a name derived from a fresh uuid and returns a download URL.

It also keeps an archive copy of every upload, linked from the page. Two read routes serve the
artifacts and the archived originals.

This project models the deterministic string logic of that pipeline in Dafny and proves
properties of it. Modules:

| module | file | what it models |
|---|---|---|
| `Results` | `results.dfy` | `Option` and `Result` (the source's exceptions become `Failure(str(e))`) |
| `Strings` | `strings.dfy` | the Python `str` operations used: `rsplit('.', 1)`, `lower`, `endswith`, `strip`, `isspace` |
| `Uploads` | `uploads.dfy` | `allowed_file`, the dispatch of `extract_text_from_file`, page joining of `extract_text_from_pdf`, the sufficiency gate |
| `Naming` | `naming.dfy` | stored names `{id}_{name}`, output names `simplified_{id}_{stem}.pdf/.html`, URLs, the MIME choices of the two read routes |
| `Headings` | `headings.dfy` | the two MULTILINE heading substitutions `^## (.+)$` and `^### (.+)$` |
| `Bold` | `bold.dfy` | the lazy bold substitution `\*\*(.+?)\*\*` |
| `Paragraphs` | `paragraphs.dfy` | the `\n\n` → `</p><p>` pass, the `<p>…</p>` wrap and the `<p>\s*</p>` cleanup |
| `Document` | `document.dfy` | the whole page of `generate_html_output`: body conversion, link fallback, fixed template |
| `Simplify` | `simplify.dfy` | the `/api/simplify` route (validation, effects, replies) and the `download` and `serve_original` routes |

How the regular expressions are modelled:
- Each `re.sub` is a left-to-right scan with Python's semantics: leftmost non-overlapping matches,
  the MULTILINE `^`, `.` not matching `\n`, the lazy `.+?`, and `\s` as `str.isspace`.
- Each scan is proved equal to an independent description (a line-by-line rewrite, a match
  predicate), or shown to be undone by an inverse rewrite.

How the rest of the world is modelled:
- Uploads, the archive and the outputs are an effect log (`Saved`, `Copied`, `Removed`,
  `Wrote`). Replaying the log over a set of paths gives the files present afterwards.
- `secure_filename`, the PDF page reader, the UTF-8 file read, the OpenAI call and WeasyPrint
  are parameters (`Simplify.Services`). Each returns its value or the text of the exception it
  raised.
- `uuid.uuid4()` and `datetime.now()` are arguments.

The text gate is the test `not paper_text or len(paper_text.strip()) < 100` (app.py:288). It
measures the stripped length, not the number of visible characters. Whitespace between the first
and last visible characters therefore counts toward the 100, as `Uploads.InteriorWhitespaceCounts`
shows.

## Model

| member | source | states |
|---|---|---|
| `Strings.RSplitOnce` | app.py:35 | `rsplit('.', 1)` yields one part (the whole name) exactly when there is no separator; otherwise prefix + separator + suffix rebuild the name and the suffix holds no separator |
| `Strings.RSplitOnceOfJoin` | app.py:52 | splitting `a + '.' + e` with a dot-free `e` gives exactly `[a, e]`: only the final suffix is taken |
| `Strings.Strip` | app.py:288 | `strip()` keeps a contiguous slice; everything cut before and after it is whitespace; a non-empty result starts and ends with a visible character |
| `Strings.NonSpaceCountBelowStripped` | app.py:288 | stripping keeps every visible character, so the stripped length is at least the number of visible characters |
| `Uploads.AllowedFileFinalSuffix` | app.py:33-35 | a name `prefix.suffix` (dot-free suffix) is accepted exactly when the lower-cased suffix is `pdf` or `txt` |
| `Uploads.AllowedFileNeedsDot` | app.py:35 | a name without a dot is refused |
| `Uploads.AllowedFileIgnoresCase` | app.py:35 | `A.PDF` is accepted: the suffix is compared lower-cased |
| `Uploads.AllowedFileLastSuffixAccepted` | app.py:35 | `a.exe.txt` is accepted: only the last suffix counts |
| `Uploads.AllowedFileEarlierSuffixIgnored` | app.py:35 | `a.txt.exe` is refused: an allowed suffix that is not last does not help |
| `Uploads.Dispatch` | app.py:50-60 | the extractor branch: a missing extension exactly for dot-free names; the PDF reader exactly for the lower-cased suffix `pdf`, the UTF-8 read exactly for `txt`; the PDF or UTF-8 branch exactly for names `allowed_file` accepts; otherwise the unsupported branch, carrying the lower-cased suffix, which lies outside the whitelist |
| `Uploads.ExtractText` | app.py:37-60 | a successful extraction implies the name is allowed; a dot-free name fails with the IndexError text; another suffix fails with `Unsupported file type: ext`; `.txt` returns the UTF-8 read; `.pdf` returns the joined page texts when the pages are read and otherwise fails with the reader's own error, which app.py:46-48 re-raises |
| `Uploads.ExtractPdfText` | app.py:42-45 | the page-by-page accumulation loop builds exactly the joined text: every page followed by a newline, in page order |
| `Uploads.InsufficientExactly` | app.py:288 | the gate rejects exactly the texts whose stripped length is under 100 (the emptiness test is subsumed); 100 visible characters always pass |
| `Uploads.InteriorWhitespaceCounts` | app.py:288 | a text of two visible characters separated by 98 spaces has 2 visible characters yet passes the gate |
| `Uploads.BlankPagesGiveBlankText` | app.py:42-45 | joining whitespace-only pages, each followed by `\n`, gives a text with no visible character |
| `Uploads.BlankPdfIsInsufficient` | app.py:37-45 | a PDF whose pages all extract to whitespace is rejected by the gate, whatever its page count |
| `Naming.UpToUnderscoreOfJoin` | app.py:278 | the token of a stored name `{token}_{name}` is recovered as the text before the first `_` |
| `Naming.Stem` | app.py:297 | the stem plus `.` plus the last suffix rebuilds a dotted name; a dot-free name is its own stem |
| `Naming.ParseOutputName` | app.py:297-307 | whatever an output name parses into rebuilds that very name |
| `Naming.ParseOutputNameRoundTrip` | app.py:297-307 | every output name built from a uuid token parses back into that token, stem and format |
| `Naming.RouteFilename` | app.py:333 | the route receives a filename exactly for a URL under `/api/download/` whose rest is non-empty and holds no `/`, and then that rest |
| `Naming.SameTokenEverywhere` | app.py:274-322 | the stored name, the output name and the download URL carry the same token, and the download route receives exactly the output name whenever the upload name holds no `/` |
| `Naming.DownloadMimeFollowsFormat` | app.py:343-346 | the download route types every output the application names by its format: PDF as `application/pdf`, HTML as `text/html` |
| `Naming.OriginalMimeIsCaseSensitive` | app.py:364-367 | as written, a stored `paper.PDF` goes to the PDF reader yet is typed `text/plain` |
| `Naming.OriginalMimeDisagreement` | app.py:364-367 | on that upload the as-written and the intended suffix tests give different types |
| `Naming.OriginalMimeIntendedAgreesWithDispatch` | app.py:364-367 | with the intended test, an archived accepted upload is typed PDF exactly when extraction dispatched it to the PDF reader |
| `Headings.HeadingSubIsLineWise` | app.py:112-114 | the left-to-right MULTILINE scan equals rewriting every `\n`-separated line on its own |
| `Headings.HeadingSubPerLine` | app.py:112 | a line followed by `\n` is rewritten alone and the rest is passed over independently |
| `Headings.HeadingPassIdempotent` | app.py:112-114 | running a heading pass a second time changes nothing |
| `Headings.HeadingPassesCommute` | app.py:112-114 | the `##` and `###` passes commute: no line is claimed by both |
| `Headings.H2Line` | app.py:112 | `## t` (non-empty, one line) becomes `<h2>t</h2>` |
| `Headings.H3Line` | app.py:114 | `### t` becomes `<h3>t</h3>` |
| `Headings.H2PassSkips` | app.py:112 | the `##` pass leaves a `### t` line and a bare `## ` (empty capture) alone |
| `Headings.PlainLineKept` | app.py:112-114 | a line starting with neither `## ` nor `### ` is kept by both passes, and the rest of the text is passed over on its own |
| `Headings.HeadingSubNoMarker` | app.py:112-114 | text without the marker's first character passes through unchanged |
| `Bold.BoldMatchExactly` | app.py:116 | the scanner reports a match with group length `k` exactly when `**`, a newline-free `k`-character group, `**` occur and no shorter group is already closed (laziness) |
| `Bold.BoldRoundTrip` | app.py:116 | on text without `<`, turning both tags back into `**` restores the input: the pass rewrites delimiters only |
| `Bold.BoldSubOfSpan` | app.py:116 | `**k**` with a star- and newline-free non-empty `k` becomes `<strong>k</strong>` and the scan continues behind it |
| `Bold.BoldStopsAtNewline` | app.py:116 | `**a\nb**` holds no match: the group cannot cross a newline |
| `Bold.BoldSubUnclosed` | app.py:116 | a `**` with no closing `**` before the end of its line is copied, and the pass goes on after the newline |
| `Bold.BoldSubWithoutStars` | app.py:116 | text with no `**` passes through unchanged |
| `Bold.BoldSubPlain` | app.py:116 | a star-free prefix is copied and the rest is scanned on its own |
| `Paragraphs.ParaSubLeavesNoPair` | app.py:118 | after the pass no `\n\n` remains, and the output is empty exactly when the input is |
| `Paragraphs.ParaRoundTrip` | app.py:118 | on text without `<`, turning every `</p><p>` back into `\n\n` restores the input |
| `Paragraphs.ParaSubWithoutPairs` | app.py:118 | text without a blank line passes through unchanged |
| `Paragraphs.EmptyParaExactly` | app.py:122 | the scanner finds an empty paragraph of length `n` exactly when the text starts with `<p>`, whitespace and `</p>` spanning `n` characters |
| `Paragraphs.CleanupDropsEmptyPara` | app.py:122 | `<p>` + whitespace + `</p>` is removed and the scan resumes behind it |
| `Paragraphs.CleanupWrapped` | app.py:120-122 | a wrapped paragraph without `<` vanishes when it is only whitespace and is kept whole otherwise |
| `Paragraphs.CleanupKeepsTaggedPara` | app.py:120-122 | a paragraph whose content opens with a tag is kept and the scan goes on inside it |
| `Paragraphs.CleanupNotIdempotent` | app.py:122 | a removal can bring together a new empty paragraph that the single pass leaves behind |
| `Document.PageDeterminesBody` | app.py:124-233 | with the same names and timestamp, two texts give the same page exactly when they give the same body |
| `Document.PageLinkFallback` | app.py:106 | a missing link name, an empty one and the original name itself give the same page: the link falls back to the original name |
| `Document.PageLinkNamed` | app.py:106-222 | any other link name appears as the `href` under the archive's address, between `href="` and the closing quote |
| `Document.BodyOfPlainText` | app.py:110-122 | text without markers, stars, `<` or blank lines becomes one paragraph, or nothing when it is only whitespace |
| `Document.BodyOfHeading` | app.py:110-122 | a lone `## t` line becomes `<p><h2>t</h2></p>` |
| `Document.BodyOfH3` | app.py:110-122 | a lone `### t` line becomes `<p><h3>t</h3></p>`: the `###` pass of app.py:114 is part of the conversion and the `##` pass leaves the line to it |
| `Document.BodyOfBold` | app.py:110-122 | a lone `**k**` becomes `<p><strong>k</strong></p>`: the bold pass of app.py:116 is part of the conversion |
| `Document.BodyOfSplitBold` | app.py:110-122 | `**a`, a blank line and `b**` give `<p>**a</p><p>b**</p>`: a `**` span broken by a blank line is not tagged. Together with `BodyOfBold` this fixes bold before paragraphs, since the other order would give `<strong>a</p><p>b</strong>` |
| `Document.BodyOfHeadingAfterText` | app.py:110-122 | the body conversion runs the heading passes before the paragraph pass: a visible line, a blank line and `## h` give `<p>a</p><p><h2>h</h2></p>` |
| `Document.HeadingsBeforeParagraphs` | app.py:112-118 | the passes' order matters: headings first finds a heading after a blank line, paragraphs first loses it |
| `Simplify.Validate` | app.py:257-269 | the three checks in order: missing file, empty name, refused type; an accepted upload has an allowed name and the PDF format exactly when the field is `pdf` |
| `Simplify.Simplify` | app.py:252-331 | a refused request touches no file and gets 400 with its message; an accepted one is handed, with its raw name and format, to the processing of `Process` with the page built by `generate_html_output`, and so first saves the upload and then archives a copy |
| `Simplify.Process` | app.py:271-331 | every accepted request saves then archives first; 200 exactly with the success reply; 400 only with the insufficient-text message and the working copy removed; otherwise 500 with `An error occurred: ` followed by the error of the step that failed (extraction, rewrite or rendering); a success writes the named output |
| `Simplify.Render` | app.py:299-310 | HTML always succeeds with the page; PDF succeeds exactly when rendering succeeds and stores its bytes, and otherwise fails with the renderer's error |
| `Simplify.ProcessFiles` | app.py:271-310 | afterwards the archive copy exists; the working copy exists exactly unless the text was refused; a success adds the output; no other path changes |
| `Simplify.InsufficientTextRejected` | app.py:286-290 | once text is extracted, the 400 reply is sent exactly for the texts the gate refuses |
| `Simplify.SanitizedNameWithoutDot` | app.py:272-286 | a sanitized name without a dot ends in a 500 carrying the IndexError text |
| `Simplify.SuccessIsTraceable` | app.py:297-322 | after a success the output name parses to the request's token, stem and format; the URL routes to it; the download route finds and types it; the original URL names the archive copy, which is found and, with the corrected suffix test (see ## Findings), typed PDF exactly for PDF uploads; the URL reaches the download route when the sanitized name holds no `/` |
| `Simplify.RenderedPage` | app.py:294-310 | after the rewrite the outcome turns only on the renderer, and the stored artifact is the page or its rendering |
| `Simplify.PageLinksToArchivedCopy` | app.py:278-322 | the published page's `href` is exactly the original-paper URL the reply returns; the fallback is never taken |
| `Simplify.Download` | app.py:333-348 | 404 exactly when the output is missing; otherwise the file as an attachment under its name, typed by its suffix |
| `Simplify.ServeOriginal` | app.py:354-369 | 404 exactly when the archive copy is missing; otherwise the file inline, typed with the corrected suffix test |
| `Simplify.PathsDiffer` | app.py:274-280 | with a uuid token the working and archive copies live at `uploads/{id}_{name}` and at the archive folder, two different paths |

## Left out

- Flask plumbing is not modelled: routing, `jsonify`, `send_file`'s headers, the index and health routes and logging.
- The 50 MB request limit (`MAX_CONTENT_LENGTH`) is not modelled. werkzeug raises `RequestEntityTooLarge` only when the body is parsed, at the first access of `request.files` (app.py:257). That access is inside the route's `try`, so `except Exception` (app.py:329-331) catches it: the route answers 500 with `An error occurred: ` and the exception's text, not 413, and touches no file.
- The `success` flag and the `scp_commands` block of the success reply are not modelled. They are constant or derived from the absolute output path, which depends on the process's working directory.
- The OpenAI call, pypdf and WeasyPrint are opaque parameters. A `None` message content from the model would make later string operations raise; the model folds that into the rewrite's `Failure`.
- The exception texts of those libraries are whatever the parameters return. Only the IndexError text of the dot-free split is fixed, since the route itself raises it.
- The start-up code that creates the three folders (`os.makedirs`) is not modelled; the folders are assumed to exist.
- File system failures are not modelled (a save that fails, a missing upload folder, a copy whose source vanished). The effect log records what the route asks for.
- The `except` branch of the two read routes (a 500 when `send_file` raises) is not modelled. Neither is the path traversal a `/`-bearing filename would need, which Flask's `<filename>` converter does not pass.
- `static/js/main.js` is not modelled: it is browser code (DOM handlers and a `fetch` call) whose only checks, a browser-side MIME type test and a 50 MB size test, stand in front of the server's own.
- Naming.RouteFilename: the URL is taken as already percent-decoded, as Flask hands it to the route; the decoding itself is not modelled.
- Naming.SameTokenEverywhere: the route-reaching conjunct holds for upload names without `/`. werkzeug's `secure_filename` never returns one, but the sanitizer is uninterpreted here, and a `/` would stop Flask's `<filename>` converter.
- Simplify.SuccessIsTraceable: the download URL is shown to reach the route only for a sanitized name without `/`, for the same reason.
- `file.filename` being `None` is not modelled; the request's file part always carries a string name.
- `secure_filename` is an uninterpreted function. The model proves what follows for any sanitizer, for example the 500 when it removes the only dot (`Simplify.SanitizedNameWithoutDot`).
- Strings.Lower: lower-cases ASCII letters only. No non-ASCII character lower-cases to one of the letters of `pdf` or `txt`, so acceptance and dispatch are unaffected. Only the text of the unsupported-type message could differ, and that branch is unreachable after validation.
- Paragraphs.Cleanup: its own contract states only a length bound. Its behaviour is stated by `EmptyParaExactly`, `CleanupDropsEmptyPara`, `CleanupWrapped`, `CleanupKeepsTaggedPara` and `CleanupNotIdempotent`.
- The page's fixed text (template and style sheet) is kept as string constants. The timestamp is an argument, so the format of `strftime` is not modelled.
- Python's `str` is modelled as a sequence of code points; the UTF-8 decoding of a `.txt` upload is part of the opaque read.

## Findings

| source | as written | input that shows it | evidently intended | confidence | as-written member | corrected member |
|---|---|---|---|---|---|---|
| app.py:364-367 | `serve_original` picks `application/pdf` by `filename.endswith('.pdf')`, which is case-sensitive, while `allowed_file` and the extractor lower-case the suffix | an upload named `paper.PDF`: accepted, read as a PDF and archived as `{id}_paper.PDF`, then served as `text/plain` | the same case-insensitive suffix test as upload and dispatch, so an archived PDF is always served as a PDF | medium; not executed | `Naming.OriginalMimeIsCaseSensitive` | `Simplify.ServeOriginal` |

`Naming.OriginalMime` is the suffix test as written and `Naming.OriginalMimeIntended` the corrected
one. `Simplify.ServeOriginal` uses the corrected test, and `Simplify.SuccessIsTraceable` proves that
it types every archived upload by the branch that read it.

=== FILE: bold.dfy ===
/** The bold pass of `generate_html_output` (app.py:116):
    `re.sub(r'\*\*(.+?)\*\*', r'<strong>\1</strong>', text)`.

    Without DOTALL, `.` matches anything but `\n`. The lazy `(.+?)` first takes one character and
    then grows one character at a time until `**` follows, giving up at a newline. Matches are
    found leftmost first and never overlap: after a match the scan resumes behind its closing
    `**`. */
module Bold {
  import opened Results
  import opened Strings

  /** `**` starts at index `j` of `s`. */
  predicate StarsAt(s: string, j: int) {
    0 <= j && j + 2 <= |s| && s[j] == '*' && s[j + 1] == '*'
  }

  /** The group `s[2..2 + k]` exists and holds no newline. */
  predicate GroupFits(s: string, k: nat) {
    2 + k <= |s| && forall i :: 2 <= i < 2 + k ==> s[i] != '\n'
  }

  /** A group of `j` characters is followed by `**`. */
  predicate ClosedAfter(s: string, j: nat) {
    StarsAt(s, 2 + j)
  }

  /** A match of the pattern at the start of `s` with a group of `k` characters: the opening
      `**`, a non-empty newline-free group, the closing `**`, and no shorter group that is
      already followed by `**`. */
  predicate IsBoldMatch(s: string, k: nat) {
    && StarsAt(s, 0)
    && 1 <= k
    && GroupFits(s, k)
    && ClosedAfter(s, k)
    && forall j :: 1 <= j < k ==> !ClosedAfter(s, j)
  }

  /** The lazy group, grown from `k` characters: the length of the first group followed by `**`,
      or `None` once a newline or the end of the text is reached. */
  function LazyGroup(s: string, k: nat): (r: Option<nat>)
    requires 1 <= k
    ensures r.Some? ==> k <= r.value && r.value + 4 <= |s|
    decreases |s| - k
  {
    if 2 + k > |s| || s[1 + k] == '\n' then None
    else if StarsAt(s, 2 + k) then Some(k)
    else LazyGroup(s, k + 1)
  }

  /** The match the regex engine finds at the start of `s`, as the group length. */
  function BoldMatch(s: string): (r: Option<nat>)
    ensures r.Some? ==> 1 <= r.value && r.value + 4 <= |s|
  {
    if StarsAt(s, 0) then LazyGroup(s, 1) else None
  }

  lemma {:induction false} LazyGroupExactly(s: string, k: nat)
    requires StarsAt(s, 0) && 1 <= k && k + 1 <= |s|
    requires forall i :: 2 <= i < 1 + k ==> s[i] != '\n'
    requires forall j :: 1 <= j < k ==> !ClosedAfter(s, j)
    ensures LazyGroup(s, k).Some? ==> IsBoldMatch(s, LazyGroup(s, k).value)
    ensures LazyGroup(s, k).None? ==> forall m :: k <= m ==> !IsBoldMatch(s, m)
    decreases |s| - k
  {
    if 2 + k > |s| || s[1 + k] == '\n' {
    } else if StarsAt(s, 2 + k) {
    } else {
      LazyGroupExactly(s, k + 1);
    }
  }

  /** The scanner finds exactly the match the pattern describes: `BoldMatch(s) == Some(k)` holds
      if and only if `IsBoldMatch(s, k)`. */
  lemma BoldMatchExactly(s: string, k: nat)
    ensures BoldMatch(s) == Some(k) <==> IsBoldMatch(s, k)
  {
    if StarsAt(s, 0) {
      LazyGroupExactly(s, 1);
    }
  }

  /** The pass over the whole text, left to right. */
  function BoldSub(s: string): string
    decreases |s|
  {
    if s == [] then []
    else
      match BoldMatch(s)
      case Some(k) => "<strong>" + s[2..2 + k] + "</strong>" + BoldSub(s[k + 4..])
      case None => [s[0]] + BoldSub(s[1..])
  }

  /** The inverse rewrite: both tags back to `**`. */
  function Unbold(t: string): string
    decreases |t|
  {
    if t == [] then []
    else if "<strong>" <= t then "**" + Unbold(t[8..])
    else if "</strong>" <= t then "**" + Unbold(t[9..])
    else [t[0]] + Unbold(t[1..])
  }

  lemma {:induction false} UnboldPlain(g: string, w: string)
    requires '<' !in g
    ensures Unbold(g + w) == g + Unbold(w)
  {
    if g != [] {
      assert (g + w)[0] == g[0];
      assert (g + w)[1..] == g[1..] + w;
      UnboldPlain(g[1..], w);
    } else {
      assert g + w == w;
    }
  }

  lemma UnboldOpen(x: string)
    ensures Unbold("<strong>" + x) == "**" + Unbold(x)
  {
    var t := "<strong>" + x;
    assert "<strong>" <= t && t[8..] == x;
  }

  lemma UnboldClose(w: string)
    ensures Unbold("</strong>" + w) == "**" + Unbold(w)
  {
    var t := "</strong>" + w;
    assert t[1] == '/';
    assert !("<strong>" <= t);
    assert "</strong>" <= t && t[9..] == w;
  }

  lemma Regroup(a: string, g: string, b: string, w: string)
    ensures a + g + b + w == a + (g + (b + w))
  {
  }

  lemma UnboldTagged(g: string, w: string)
    requires '<' !in g
    ensures Unbold("<strong>" + g + "</strong>" + w) == "**" + g + "**" + Unbold(w)
  {
    var closing := "</strong>" + w;
    Regroup("<strong>", g, "</strong>", w);
    UnboldOpen(g + closing);
    UnboldPlain(g, closing);
    UnboldClose(w);
  }

  lemma SpanSplit(s: string, k: nat)
    requires StarsAt(s, 0) && ClosedAfter(s, k)
    ensures s == "**" + s[2..2 + k] + "**" + s[k + 4..]
  {
    assert s[..2] == "**";
    assert s[2 + k..k + 4] == "**";
    assert s == s[..2] + s[2..2 + k] + s[2 + k..k + 4] + s[k + 4..];
  }

  /** Round trip: on text without `<`, turning the tags back into `**` restores the input, so the
      pass only ever rewrites the delimiters and keeps every other character in place. */
  lemma {:induction false} BoldRoundTrip(s: string)
    requires '<' !in s
    ensures Unbold(BoldSub(s)) == s
    decreases |s|
  {
    if s != [] {
      match BoldMatch(s)
      case Some(k) =>
        var g, rest := s[2..2 + k], s[k + 4..];
        BoldMatchExactly(s, k);
        SpanSplit(s, k);
        assert '<' !in rest && '<' !in g;
        BoldRoundTrip(rest);
        BoldSubAtMatch(s, k);
        UnboldTagged(g, BoldSub(rest));
      case None =>
        assert '<' !in s[1..];
        BoldRoundTrip(s[1..]);
        UnboldPlain([s[0]], BoldSub(s[1..]));
        assert [s[0]] + s[1..] == s;
    }
  }

  /** Text without any `**` passes through unchanged. */
  lemma {:induction false} BoldSubWithoutStars(s: string)
    requires forall j :: !StarsAt(s, j)
    ensures BoldSub(s) == s
    decreases |s|
  {
    if s != [] {
      assert !StarsAt(s, 0);
      forall j
        ensures !StarsAt(s[1..], j)
      {
        if StarsAt(s[1..], j) {
          assert StarsAt(s, j + 1);
        }
      }
      BoldSubWithoutStars(s[1..]);
    }
  }

  /** One step of the scan at a match. */
  lemma BoldSubAtMatch(s: string, k: nat)
    requires BoldMatch(s) == Some(k)
    ensures BoldSub(s) == "<strong>" + s[2..2 + k] + "</strong>" + BoldSub(s[k + 4..])
  {
  }

  /** A span of plain text between two `**` is one match: `**k**` becomes `<strong>k</strong>`
      and the scan goes on behind it. So `**Key** point.` becomes `<strong>Key</strong> point.` */
  lemma BoldSubOfSpan(k: string, w: string)
    requires k != [] && '*' !in k && '\n' !in k
    ensures BoldSub("**" + k + "**" + w) == "<strong>" + k + "</strong>" + BoldSub(w)
  {
    var s := "**" + k + "**" + w;
    assert s[2..2 + |k|] == k;
    assert forall i :: 2 <= i < 2 + |k| ==> s[i] == k[i - 2];
    assert StarsAt(s, 0) && StarsAt(s, 2 + |k|);
    assert IsBoldMatch(s, |k|);
    BoldMatchExactly(s, |k|);
    assert s[|k| + 4..] == w;
  }

  /** A newline inside the span defeats the match: `**a` and `b**` on two lines stay as they are. */
  lemma BoldStopsAtNewline()
    ensures BoldMatch("**a\nb**") == None
  {
    var s := "**a\nb**";
    assert LazyGroup(s, 2) == None;
    assert LazyGroup(s, 1) == None;
  }

  /** A `**` with no closing `**` before the end of its line is copied: the lazy group cannot
      cross the `\n`, so no match starts at either star. */
  lemma BoldSubUnclosed(a: string, w: string)
    requires '*' !in a && '\n' !in a
    ensures BoldSub("**" + a + "\n" + w) == "**" + a + "\n" + BoldSub(w)
  {
    var s := "**" + a + "\n" + w;
    assert BoldMatch(s) == None by {
      assert s[2 + |a|] == '\n';
      if BoldMatch(s).Some? {
        var k := BoldMatch(s).value;
        BoldMatchExactly(s, k);
      }
    }
    var t := s[1..];
    assert t == "*" + (a + "\n" + w);
    assert !StarsAt(t, 0) by {
      if a == [] {
        assert t[1] == '\n';
      } else {
        assert t[1] == a[0];
      }
    }
    BoldSubPlain(a + "\n", w);
    assert a + "\n" + w == (a + "\n") + w;
    assert "**" + a + "\n" + BoldSub(w) == ['*'] + (['*'] + ((a + "\n") + BoldSub(w)));
  }

  /** A lone `**` at the end of the text is copied. */
  lemma BoldSubOfStars()
    ensures BoldSub("**") == "**"
  {
    assert LazyGroup("**", 1) == None;
    assert "**"[1..] == "*";
  }

  /** Text without `*` is copied by the pass, whatever follows it. */
  lemma {:induction false} BoldSubPlain(g: string, w: string)
    requires '*' !in g
    ensures BoldSub(g + w) == g + BoldSub(w)
  {
    if g == [] {
      assert g + w == w;
    } else {
      var s := g + w;
      assert s[0] == g[0] && s[1..] == g[1..] + w;
      assert BoldSub(s) == [g[0]] + BoldSub(g[1..] + w) by {
        assert !StarsAt(s, 0);
      }
      BoldSubPlain(g[1..], w);
      ConsAppend(g, BoldSub(w));
    }
  }
}

=== FILE: document.dfy ===
/** `generate_html_output` (app.py:103-233): the body conversion, the link fallback and the fixed
    page around them. The timestamp of `datetime.now()` is a parameter. */
module Document {
  import opened Results
  import opened Strings
  import opened Naming
  import opened Headings
  import opened Bold
  import opened Paragraphs

  /** The body conversion of app.py:110-122: the two heading passes, the bold pass, the paragraph
      pass, the wrap and the removal of empty paragraphs, in this order. */
  function BodyHtml(text: string): string {
    Cleanup(Wrap(ParaSub(BoldSub(H3Pass(H2Pass(text))))))
  }

  /** `original_paper_link_filename or original_filename`: a missing or empty link name falls back
      to the original name. */
  function LinkFilename(original: string, link: Option<string>): string {
    if link.None? || link.value == "" then original else link.value
  }

  /** The `href` of the original-paper link. */
  function LinkTarget(original: string, link: Option<string>): string {
    ArchiveBaseUrl + LinkFilename(original, link)
  }

  // The fixed text of the page, cut at the places where the f-string inserts a value.

  const DocHead: string :=
    "<!DOCTYPE html>\n"
    + "<html lang=\"en\">\n"
    + "<head>\n"
    + "    <meta charset=\"UTF-8\">\n"
    + "    <meta name=\"viewport\" content=\"width=device-width, initial-scale=1.0\">\n"
    + "    <title>Simplified: "

  const DocStyleOpen: string :=
    "</title>\n"
    + "    <style>\n"

  /** The rules of the page's style sheet, one string per rule. */
  const StyleRules: seq<string> := [
    "        body {\n"
      + "            font-family: 'Segoe UI', Tahoma, Geneva, Verdana, sans-serif;\n"
      + "            max-width: 900px;\n"
      + "            margin: 0 auto;\n"
      + "            padding: 40px 20px;\n"
      + "            line-height: 1.8;\n"
      + "            color: #333;\n"
      + "            background-color: #f5f5f5;\n"
      + "        }\n",
    "        .container {\n"
      + "            background-color: white;\n"
      + "            padding: 40px;\n"
      + "            border-radius: 8px;\n"
      + "            box-shadow: 0 2px 10px rgba(0,0,0,0.1);\n"
      + "        }\n",
    "        h1 {\n"
      + "            color: #2c3e50;\n"
      + "            border-bottom: 3px solid #3498db;\n"
      + "            padding-bottom: 10px;\n"
      + "            margin-bottom: 30px;\n"
      + "            font-size: 2.2em;\n"
      + "        }\n",
    "        h2 {\n"
      + "            color: #34495e;\n"
      + "            margin-top: 40px;\n"
      + "            margin-bottom: 20px;\n"
      + "            padding-bottom: 10px;\n"
      + "            border-bottom: 2px solid #ecf0f1;\n"
      + "            font-size: 1.6em;\n"
      + "        }\n",
    "        h3 {\n"
      + "            color: #2c3e50;\n"
      + "            margin-top: 25px;\n"
      + "            margin-bottom: 15px;\n"
      + "            font-size: 1.3em;\n"
      + "        }\n",
    "        .metadata {\n"
      + "            color: #7f8c8d;\n"
      + "            font-size: 0.9em;\n"
      + "            margin-bottom: 30px;\n"
      + "            padding: 20px;\n"
      + "            background-color: #ecf0f1;\n"
      + "            border-radius: 4px;\n"
      + "            border-left: 4px solid #3498db;\n"
      + "        }\n",
    "        .original-paper-link {\n"
      + "            margin-bottom: 30px;\n"
      + "            padding: 15px;\n"
      + "            background-color: #e8f4f8;\n"
      + "            border-radius: 4px;\n"
      + "            border-left: 4px solid #3498db;\n"
      + "        }\n",
    "        .original-paper-link a {\n"
      + "            color: #2980b9;\n"
      + "            text-decoration: none;\n"
      + "            font-weight: bold;\n"
      + "        }\n",
    "        .original-paper-link a:hover {\n"
      + "            text-decoration: underline;\n"
      + "        }\n",
    "        .content {\n"
      + "            word-wrap: break-word;\n"
      + "        }\n",
    "        .content p {\n"
      + "            margin-bottom: 15px;\n"
      + "        }\n",
    "        .section {\n"
      + "            margin-bottom: 35px;\n"
      + "        }\n",
    "        .footer {\n"
      + "            margin-top: 50px;\n"
      + "            padding-top: 20px;\n"
      + "            border-top: 1px solid #ddd;\n"
      + "            text-align: center;\n"
      + "            color: #7f8c8d;\n"
      + "            font-size: 0.9em;\n"
      + "        }\n",
    "        strong {\n"
      + "            color: #2c3e50;\n"
      + "        }\n"
  ]

  const DocMetaOpen: string :=
    "    </style>\n"
    + "</head>\n"
    + "<body>\n"
    + "    <div class=\"container\">\n"
    + "        <h1>Science Simplifier Results</h1>\n"
    + "        <div class=\"metadata\">\n"
    + "            <strong>Original Document:</strong> "

  const DocProcessed: string :=
    "<br>\n"
    + "            <strong>Processed:</strong> "

  const DocLinkOpen: string :=
    "\n"
    + "        </div>\n"
    + "        <div class=\"original-paper-link\">\n"
    + "            <strong>\U{1F4C4} Original Paper:</strong>\n"
    + "            <a href=\""

  const DocContentOpen: string :=
    "\" target=\"_blank\">View Original Paper</a>\n"
    + "        </div>\n"
    + "        <div class=\"content\">\n"

  const DocFooter: string :=
    "\n"
    + "        </div>\n"
    + "        <div class=\"footer\">\n"
    + "            Generated by Science Simplifier Tool @ sst.mbiri.net\n"
    + "        </div>\n"
    + "    </div>\n"
    + "</body>\n"
    + "</html>"

  /** The strings of `parts`, one after another. */
  function Concat(parts: seq<string>): string {
    if parts == [] then "" else parts[0] + Concat(parts[1..])
  }

  /** The page up to the opening quote of the original-paper link's `href`. */
  function LinkPrefix(original: string, processed: string): string {
    Concat([DocHead, original, DocStyleOpen, Concat(StyleRules), DocMetaOpen, original,
            DocProcessed, processed]) + DocLinkOpen
  }

  /** Everything before the body: it depends on the names and the timestamp, not on the text. */
  function PageHead(original: string, link: Option<string>, processed: string): string {
    LinkPrefix(original, processed) + LinkTarget(original, link) + DocContentOpen
  }

  /** The whole page `generate_html_output` returns. */
  function DocumentHtml(text: string, original: string, link: Option<string>, processed: string): string {
    PageHead(original, link, processed) + BodyHtml(text) + DocFooter
  }

  /** The page determines its body and the body is all it takes from the text: with the same
      names and timestamp, two texts give the same page exactly when they give the same body. */
  lemma PageDeterminesBody(t1: string, t2: string, original: string, link: Option<string>, processed: string)
    ensures DocumentHtml(t1, original, link, processed) == DocumentHtml(t2, original, link, processed)
            <==> BodyHtml(t1) == BodyHtml(t2)
  {
    CancelAround(PageHead(original, link, processed), BodyHtml(t1), BodyHtml(t2), DocFooter);
  }

  lemma CancelAround(h: string, b1: string, b2: string, f: string)
    ensures h + b1 + f == h + b2 + f <==> b1 == b2
  {
    if h + b1 + f == h + b2 + f {
      assert b1 == (h + b1 + f)[|h|..|h| + |b1|];
    }
  }

  /** The link on the page falls back to the original name: a missing link name, an empty one
      and the original name itself all give the same page. */
  lemma PageLinkFallback(text: string, original: string, processed: string)
    ensures DocumentHtml(text, original, None, processed) == DocumentHtml(text, original, Some(""), processed)
    ensures DocumentHtml(text, original, None, processed) == DocumentHtml(text, original, Some(original), processed)
  {
    assert LinkTarget(original, None) == LinkTarget(original, Some(""));
    assert LinkTarget(original, None) == LinkTarget(original, Some(original));
  }

  /** Any other link name is placed, under the archive's address, between the `href="` that ends
      `LinkPrefix` and the closing quote that starts `DocContentOpen`. */
  lemma PageLinkNamed(text: string, original: string, link: string, processed: string)
    requires link != ""
    ensures DocumentHtml(text, original, Some(link), processed)
              == LinkPrefix(original, processed) + (ArchiveBaseUrl + link) + DocContentOpen + BodyHtml(text) + DocFooter
    ensures EndsWith(LinkPrefix(original, processed), "<a href=\"") && DocContentOpen[0] == '"'
  {
    LinkPrefixEndsInHref(original, processed);
  }

  lemma LinkPrefixEndsInHref(original: string, processed: string)
    ensures EndsWith(LinkPrefix(original, processed), "<a href=\"")
  {
    var head := Concat([DocHead, original, DocStyleOpen, Concat(StyleRules), DocMetaOpen, original,
                        DocProcessed, processed]);
    EndsWithAppend(head, DocLinkOpen, "<a href=\"");
  }

  lemma EndsWithAppend(a: string, b: string, suffix: string)
    requires EndsWith(b, suffix)
    ensures EndsWith(a + b, suffix)
  {
    assert (a + b)[|a + b| - |suffix|..] == b[|b| - |suffix|..];
  }

  /** Text with no heading marker, no `*`, no `<` and no blank line becomes one paragraph, or
      nothing at all when it is only whitespace. */
  lemma BodyOfPlainText(text: string)
    requires '<' !in text && '*' !in text && '#' !in text && NoNewlinePair(text)
    ensures BodyHtml(text) == (if NonSpaceCount(text) == 0 then "" else Wrap(text))
  {
    HeadingSubNoMarker("## ", "h2", text, true);
    HeadingSubNoMarker("### ", "h3", text, true);
    BoldSubPlain(text, "");
    assert text + "" == text;
    ParaSubWithoutPairs(text);
    CleanupWrapped(text);
  }

  /** A `### t` line alone becomes a level-3 heading inside one paragraph: the `###` pass is
      part of the conversion, and the `##` pass leaves the line to it. */
  lemma BodyOfH3(t: string)
    requires t != [] && '\n' !in t && '*' !in t && '<' !in t
    ensures BodyHtml("### " + t) == "<p><h3>" + t + "</h3></p>"
  {
    H3Passes(t);
    TagsHaveNoOpenTag();
    TagPairKept("<h3>", t, "</h3>");
    WrapH3(t);
  }

  lemma H3Passes(t: string)
    requires t != [] && '\n' !in t && '*' !in t
    ensures ParaSub(BoldSub(H3Pass(H2Pass("### " + t)))) == "<h3>" + t + "</h3>"
  {
    var x := "<h3>" + t + "</h3>";
    H2PassSkips(t);
    H3Line(t);
    BoldSubPlain(x, "");
    ParaSubPlain(x, "");
    assert x + "" == x;
  }

  /** A `**k**` span alone becomes one bold paragraph: the bold pass is part of the conversion. */
  lemma BodyOfBold(k: string)
    requires k != [] && '*' !in k && '\n' !in k && '<' !in k && '#' !in k
    ensures BodyHtml("**" + k + "**") == "<p><strong>" + k + "</strong></p>"
  {
    BoldPasses(k);
    TagsHaveNoOpenTag();
    TagPairKept("<strong>", k, "</strong>");
    WrapStrong(k);
  }

  lemma BoldPasses(k: string)
    requires k != [] && '*' !in k && '\n' !in k && '#' !in k
    ensures ParaSub(BoldSub(H3Pass(H2Pass("**" + k + "**")))) == "<strong>" + k + "</strong>"
  {
    var s := "**" + k + "**";
    var y := "<strong>" + k + "</strong>";
    HeadingSubNoMarker("## ", "h2", s, true);
    HeadingSubNoMarker("### ", "h3", s, true);
    BoldSubOfSpan(k, "");
    assert s + "" == s;
    ParaSubPlain(y, "");
    assert y + "" == y;
  }

  lemma TagsHaveNoOpenTag()
    ensures NoOpenTag("<h3>") && NoOpenTag("</h3>") && NoOpenTag("<strong>") && NoOpenTag("</strong>")
  {
  }

  /** A paragraph holding one tagged, tag-free text is kept as it is. */
  lemma TagPairKept(open: string, t: string, close: string)
    requires 2 <= |open| && open[0] == '<' && open[1] != '/' && NoOpenTag(open) && NoOpenTag(close)
    requires '<' !in t
    ensures Cleanup(Wrap(open + t + close)) == Wrap(open + t + close)
  {
    var x := open + t + close;
    PlainHasNoOpenTag(t);
    NoOpenTagAppend(open, t);
    NoOpenTagAppend(open + t, close);
    assert x[0] == '<' && x[1] == open[1];
    CleanupKeepsTaggedPara(x);
    CleanupPlain(x, "</p>");
    CleanupClosingTag();
  }

  /** A `## t` line alone becomes a level-2 heading inside one paragraph. */
  lemma BodyOfHeading(t: string)
    requires t != [] && '\n' !in t && '*' !in t && '<' !in t
    ensures BodyHtml("## " + t) == "<p><h2>" + t + "</h2></p>"
  {
    var x := "<h2>" + t + "</h2>";
    H2Line(t);
    HeadingTagShape(t);
    HeadingSubPerLine("### ", "h3", x, "");
    BoldSubPlain(x, "");
    ParaSubPlain(x, "");
    assert x + "" == x;
    CleanupHeadingPara(t);
    WrapHeading(t);
  }

  lemma HeadingTagShape(t: string)
    requires '\n' !in t && '*' !in t && '<' !in t
    ensures var x := "<h2>" + t + "</h2>";
      && '\n' !in x && '*' !in x && x[0] == '<' && x[1] == 'h'
      && NoOpenTag(x) && !("### " <= x)
  {
    var x := "<h2>" + t + "</h2>";
    forall i | 0 <= i < |x|
      ensures !OpenTagAt(x, i)
    {
      var tail := "</h2>";
      assert x == ("<h2>" + t) + tail;
      if 4 <= i < 4 + |t| {
        assert x[i] == t[i - 4];
      } else if i >= 4 + |t| {
        assert x[i] == tail[i - 4 - |t|];
        if i + 1 < |x| {
          assert x[i + 1] == tail[i + 1 - 4 - |t|];
        }
      }
    }
  }

  /** The heading passes must run before the paragraph pass: a heading after a blank line is
      found in this order, while the other order glues it to the previous line, where `^` no
      longer holds, and loses it. */
  lemma HeadingsBeforeParagraphs(a: string, h: string)
    requires a != [] && a[0] != '#' && '\n' !in a && h != [] && '\n' !in h
    ensures ParaSub(H2Pass(a + "\n\n## " + h)) == a + "</p><p><h2>" + h + "</h2>"
    ensures H2Pass(ParaSub(a + "\n\n## " + h)) == a + "</p><p>## " + h
  {
    HeadingsFirst(a, h);
    ParagraphsFirst(a, h);
  }

  lemma HeadingsFirst(a: string, h: string)
    requires a != [] && a[0] != '#' && '\n' !in a && h != [] && '\n' !in h
    ensures ParaSub(H2Pass(a + "\n\n## " + h)) == a + "</p><p><h2>" + h + "</h2>"
  {
    var x := "<h2>" + h + "</h2>";
    H2PassOfBlankHeading(a, h);
    ParaSubPlain(a, "\n\n" + x);
    ParaSubAtPair(x);
    assert '\n' !in x;
    ParaSubPlain(x, "");
    assert x + "" == x;
    RegroupHeading(a, h);
  }

  /** The `##` pass over a line, a blank line and a heading line. */
  lemma H2PassOfBlankHeading(a: string, h: string)
    requires a != [] && a[0] != '#' && '\n' !in a && h != [] && '\n' !in h
    ensures H2Pass(a + "\n\n## " + h) == a + ("\n\n" + ("<h2>" + h + "</h2>"))
  {
    var line := "## " + h;
    RegroupBlank(a, h);
    H2PassKeepsLine(a, "\n" + line);
    H2PassKeepsLine("", line);
    assert "" + "\n" + line == "\n" + line;
    H2Line(h);
    RegroupNewlines(a, "<h2>" + h + "</h2>");
  }

  /** A line that does not start with `#` is kept by the `##` pass. */
  lemma H2PassKeepsLine(line: string, rest: string)
    requires '\n' !in line && (line == [] || line[0] != '#')
    ensures H2Pass(line + "\n" + rest) == line + "\n" + H2Pass(rest)
  {
    HeadingSubPerLine("## ", "h2", line, rest);
    assert !("## " <= line);
  }

  lemma ParagraphsFirst(a: string, h: string)
    requires a != [] && a[0] != '#' && '\n' !in a && h != [] && '\n' !in h
    ensures H2Pass(ParaSub(a + "\n\n## " + h)) == a + "</p><p>## " + h
  {
    var line := "## " + h;
    RegroupPair(a, h);
    ParaSubPlain(a, "\n\n" + line);
    ParaSubAtPair(line);
    ParaSubPlain(line, "");
    assert line + "" == line;
    var joined := a + "</p><p>## " + h;
    RegroupJoined(a, h);
    assert '\n' !in joined;
    HeadingSubPerLine("## ", "h2", joined, "");
    assert !("## " <= joined);
  }

  /** The passes of `BodyHtml` run in the order of app.py:112-122. Bold before paragraphs: a
      `**` span broken by a blank line is left alone, because the bold group cannot cross a
      newline. With the paragraph pass first, the span would sit on one line as
      `**a</p><p>b**` and be tagged across the paragraph boundary. */
  lemma BodyOfSplitBold(a: string, b: string)
    requires '*' !in a && '\n' !in a && '<' !in a && '#' !in a
    requires '*' !in b && '\n' !in b && '<' !in b && '#' !in b
    ensures BodyHtml("**" + a + "\n\n" + b + "**") == "<p>**" + a + "</p><p>" + b + "**</p>"
  {
    var s := "**" + a + "\n\n" + b + "**";
    var x := "**" + a;
    var y := b + "**";
    HeadingSubNoMarker("## ", "h2", s, true);
    HeadingSubNoMarker("### ", "h3", s, true);
    SplitBoldKept(a, b);
    RegroupSplitBold(a, b);
    ParaSubAtBlankLine(x, y);
    ParaSubPlain(y, "");
    assert y + "" == y;
    StarsAreVisible(a);
    StarsAreVisible(b);
    CleanupVisiblePara(y);
    CleanupTwoParas(x, y);
    WrapSplitBold(a, b);
  }

  /** The bold pass copies a `**` span that a blank line breaks. */
  lemma SplitBoldKept(a: string, b: string)
    requires '*' !in a && '\n' !in a && '*' !in b && '\n' !in b
    ensures BoldSub("**" + a + "\n\n" + b + "**") == "**" + a + "\n\n" + b + "**"
  {
    var w := "\n" + b + "**";
    assert "**" + a + "\n\n" + b + "**" == "**" + a + "\n" + w;
    BoldSubUnclosed(a, w);
    BoldSubPlain("\n" + b, "**");
    assert w == ("\n" + b) + "**";
    BoldSubOfStars();
  }

  lemma StarsAreVisible(a: string)
    ensures NonSpaceCount("**" + a) != 0 && NonSpaceCount(a + "**") != 0
  {
    NonSpaceCountAppend("**", a);
    NonSpaceCountAppend(a, "**");
  }

  /** A line, a blank line and a heading, where the first line holds a visible character: two
      paragraphs, the second holding the heading. With the paragraph pass before the heading
      passes, the `## ` would no longer start a line and would stay as it is. */
  lemma BodyOfHeadingAfterText(a: string, h: string)
    requires a != [] && a[0] != '#' && '\n' !in a && '*' !in a && '<' !in a && NonSpaceCount(a) != 0
    requires h != [] && '\n' !in h && '*' !in h && '<' !in h
    ensures BodyHtml(a + "\n\n## " + h) == "<p>" + a + "</p><p><h2>" + h + "</h2></p>"
  {
    HeadingAfterTextPasses(a, h);
    CleanupHeadingPara(h);
    CleanupTwoParas(a, "<h2>" + h + "</h2>");
    WrapHeadingAfterText(a, h);
  }

  /** The passes before the wrap: the heading is tagged and the blank line becomes a paragraph
      break. */
  lemma HeadingAfterTextPasses(a: string, h: string)
    requires a != [] && a[0] != '#' && '\n' !in a && '*' !in a && h != [] && '\n' !in h && '*' !in h && '<' !in h
    ensures ParaSub(BoldSub(H3Pass(H2Pass(a + "\n\n## " + h)))) == a + ("</p><p>" + ("<h2>" + h + "</h2>"))
  {
    var y := a + ("\n\n" + ("<h2>" + h + "</h2>"));
    H2PassOfBlankHeading(a, h);
    H3PassOfBlankHeading(a, h);
    BoldSubPlain(y, "");
    assert y + "" == y;
    HeadingsFirst(a, h);
    RegroupHeading(a, h);
  }

  /** The `###` pass leaves a line, a blank line and a level-2 heading alone. */
  lemma H3PassOfBlankHeading(a: string, h: string)
    requires a != [] && a[0] != '#' && '\n' !in a && h != [] && '\n' !in h && '*' !in h && '<' !in h
    ensures var x := "<h2>" + h + "</h2>";
      H3Pass(a + ("\n\n" + x)) == a + ("\n\n" + x)
  {
    var x := "<h2>" + h + "</h2>";
    RegroupNewlines(a, x);
    PlainLineKept(a, "\n" + x);
    PlainLineKept("", x);
    assert "" + "\n" + x == "\n" + x;
    HeadingTagShape(h);
    HeadingSubPerLine("### ", "h3", x, "");
  }

  /** A paragraph holding only a level-2 heading is kept. */
  lemma CleanupHeadingPara(t: string)
    requires '\n' !in t && '*' !in t && '<' !in t
    ensures var x := "<h2>" + t + "</h2>";
      Cleanup(Wrap(x)) == Wrap(x)
  {
    var x := "<h2>" + t + "</h2>";
    HeadingTagShape(t);
    CleanupKeepsTaggedPara(x);
    CleanupPlain(x, "</p>");
    CleanupClosingTag();
  }

  // Regrouping steps for the proofs above. Each is one re-association of a concatenation;
  // stated inline instead, they leave those proofs out of resource.

  lemma WrapHeading(t: string)
    ensures "<p>" + ("<h2>" + t + "</h2>" + "</p>") == "<p><h2>" + t + "</h2></p>"
  {
  }

  lemma RegroupHeading(a: string, h: string)
    ensures a + ("</p><p>" + ("<h2>" + h + "</h2>")) == a + "</p><p><h2>" + h + "</h2>"
  {
  }

  lemma RegroupBlank(a: string, h: string)
    ensures a + "\n\n## " + h == a + "\n" + ("\n" + ("## " + h))
  {
  }

  lemma RegroupNewlines(a: string, x: string)
    ensures a + "\n" + ("\n" + x) == a + ("\n\n" + x)
  {
  }

  lemma RegroupPair(a: string, h: string)
    ensures a + "\n\n## " + h == a + ("\n\n" + ("## " + h))
  {
  }

  lemma RegroupSplitBold(a: string, b: string)
    ensures "**" + a + "\n\n" + b + "**" == ("**" + a) + "\n\n" + (b + "**")
  {
  }

  lemma WrapSplitBold(a: string, b: string)
    ensures Wrap(("**" + a) + ("</p><p>" + (b + "**"))) == "<p>**" + a + "</p><p>" + b + "**</p>"
  {
  }

  lemma WrapHeadingAfterText(a: string, h: string)
    ensures Wrap(a + ("</p><p>" + ("<h2>" + h + "</h2>"))) == "<p>" + a + "</p><p><h2>" + h + "</h2></p>"
  {
  }

  lemma WrapH3(t: string)
    ensures "<p>" + ("<h3>" + t + "</h3>" + "</p>") == "<p><h3>" + t + "</h3></p>"
  {
  }

  lemma WrapStrong(k: string)
    ensures "<p>" + ("<strong>" + k + "</strong>" + "</p>") == "<p><strong>" + k + "</strong></p>"
  {
  }

  lemma RegroupJoined(a: string, h: string)
    requires a != []
    ensures a + ("</p><p>" + ("## " + h)) == a + "</p><p>## " + h
    ensures (a + "</p><p>## " + h)[0] == a[0]
  {
  }
}

=== FILE: headings.dfy ===
/** The two heading passes of `generate_html_output` (app.py:112-114):
    `re.sub(r'^## (.+)$', r'<h2>\1</h2>', text, flags=re.MULTILINE)` and its `###` twin.

    Under MULTILINE, `^` holds at the start of the text and right after every `\n`; `.` matches
    anything but `\n`, so the greedy `(.+)$` takes the rest of the line and needs at least one
    character of it. `HeadingSub` scans left to right as the regex engine does; `RewriteLines`
    states the same pass line by line, and `HeadingSubIsLineWise` proves the two agree. */
module Headings {
  import opened Strings

  /** The length of the first line of `s`: the index of its first `\n`, or `|s|`. */
  function LineLength(s: string): (n: nat)
    ensures n <= |s|
    ensures '\n' !in s[..n]
    ensures n < |s| ==> s[n] == '\n'
  {
    if s == [] || s[0] == '\n' then 0
    else
      var n := 1 + LineLength(s[1..]);
      assert s[..n] == [s[0]] + s[1..][..n - 1];
      n
  }

  /** `<tag>inner</tag>`. */
  function Tagged(tag: string, inner: string): string {
    "<" + tag + ">" + inner + "</" + tag + ">"
  }

  /** The pass `^marker(.+)$` → `<tag>\1</tag>` over `s`; `atLineStart` says whether `^` holds at
      the first character of `s`. After a match the scan resumes at the line's `\n`, where `^`
      does not hold. */
  function HeadingSub(marker: string, tag: string, s: string, atLineStart: bool): string
    decreases |s|
  {
    if s == [] then []
    else if atLineStart && marker <= s && |marker| < LineLength(s) then
      var e := LineLength(s);
      Tagged(tag, s[|marker|..e]) + HeadingSub(marker, tag, s[e..], false)
    else
      [s[0]] + HeadingSub(marker, tag, s[1..], s[0] == '\n')
  }

  /** The `##` pass of app.py:112, from the start of the text. */
  function H2Pass(s: string): string {
    HeadingSub("## ", "h2", s, true)
  }

  /** The `###` pass of app.py:114, from the start of the text. */
  function H3Pass(s: string): string {
    HeadingSub("### ", "h3", s, true)
  }

  /** What the pass does to one line (a text without `\n`). */
  function RewriteLine(marker: string, tag: string, line: string): string {
    if marker <= line && |marker| < |line| then Tagged(tag, line[|marker|..]) else line
  }

  /** The pass stated line by line: every `\n`-separated line is rewritten on its own. */
  function RewriteLines(marker: string, tag: string, s: string): string
    decreases |s|
  {
    var e := LineLength(s);
    RewriteLine(marker, tag, s[..e]) + (if e == |s| then "" else "\n" + RewriteLines(marker, tag, s[e + 1..]))
  }

  /** Away from a line start the pass copies the rest of the line and resumes at the next one. */
  lemma {:induction false} HeadingSubMidLine(marker: string, tag: string, s: string)
    ensures var e := LineLength(s);
      HeadingSub(marker, tag, s, false)
        == s[..e] + (if e == |s| then "" else "\n" + HeadingSub(marker, tag, s[e + 1..], true))
    decreases |s|
  {
    var e := LineLength(s);
    if s == [] {
    } else if s[0] == '\n' {
      assert e == 0;
      assert s[..1] == "\n";
    } else {
      var t := if e == |s| then "" else "\n" + HeadingSub(marker, tag, s[e + 1..], true);
      assert LineLength(s[1..]) == e - 1;
      assert HeadingSub(marker, tag, s[1..], false) == s[1..][..e - 1] + t by {
        HeadingSubMidLine(marker, tag, s[1..]);
        if e < |s| {
          assert s[1..][e - 1 + 1..] == s[e + 1..];
        }
      }
      assert [s[0]] + (s[1..][..e - 1] + t) == s[..e] + t by {
        assert s[..e][1..] == s[1..][..e - 1];
        ConsAppend(s[..e], t);
      }
    }
  }

  /** At a line start the pass rewrites the first line on its own and resumes after its `\n`. */
  lemma HeadingSubAtLineStart(marker: string, tag: string, s: string)
    requires s != []
    ensures var e := LineLength(s);
      HeadingSub(marker, tag, s, true)
        == RewriteLine(marker, tag, s[..e])
           + (if e == |s| then "" else "\n" + HeadingSub(marker, tag, s[e + 1..], true))
  {
    var e := LineLength(s);
    var line := s[..e];
    if marker <= s && |marker| < e {
      HeadingSubLineMatched(marker, tag, s);
    } else {
      HeadingSubLineKept(marker, tag, s);
    }
  }

  lemma HeadingSubLineMatched(marker: string, tag: string, s: string)
    requires s != [] && marker <= s && |marker| < LineLength(s)
    ensures var e := LineLength(s);
      HeadingSub(marker, tag, s, true)
        == RewriteLine(marker, tag, s[..e])
           + (if e == |s| then "" else "\n" + HeadingSub(marker, tag, s[e + 1..], true))
  {
    var e := LineLength(s);
    var line := s[..e];
    assert marker <= line;
    assert line[|marker|..] == s[|marker|..e];
    HeadingSubMidLine(marker, tag, s[e..]);
    assert LineLength(s[e..]) == 0;
    assert s[e..][..0] == "";
    if e < |s| {
      assert s[e..][1..] == s[e + 1..];
    }
  }

  /** Where no heading starts, the pass copies one character and goes on. */
  lemma HeadingSubCopyStep(marker: string, tag: string, s: string, atLineStart: bool)
    requires s != [] && !(atLineStart && marker <= s && |marker| < LineLength(s))
    ensures HeadingSub(marker, tag, s, atLineStart) == [s[0]] + HeadingSub(marker, tag, s[1..], s[0] == '\n')
  {
  }

  lemma HeadingSubLineKept(marker: string, tag: string, s: string)
    requires s != [] && !(marker <= s && |marker| < LineLength(s))
    ensures var e := LineLength(s);
      HeadingSub(marker, tag, s, true)
        == RewriteLine(marker, tag, s[..e])
           + (if e == |s| then "" else "\n" + HeadingSub(marker, tag, s[e + 1..], true))
  {
    var e := LineLength(s);
    var line := s[..e];
    var tail := if e == |s| then "" else "\n" + HeadingSub(marker, tag, s[e + 1..], true);
    HeadingSubCopyStep(marker, tag, s, true);
    assert RewriteLine(marker, tag, line) == line;
    if s[0] == '\n' {
      assert e == 0 && line == [];
    } else {
      assert LineLength(s[1..]) == e - 1;
      assert HeadingSub(marker, tag, s[1..], false) == s[1..][..e - 1] + tail by {
        HeadingSubMidLine(marker, tag, s[1..]);
        if e < |s| {
          assert s[1..][e - 1 + 1..] == s[e + 1..];
        }
      }
      assert [s[0]] + (s[1..][..e - 1] + tail) == s[..e] + tail by {
        assert s[..e][1..] == s[1..][..e - 1];
        ConsAppend(s[..e], tail);
      }
    }
  }

  /** The left-to-right scan and the line-by-line statement of the pass agree on every text. */
  lemma {:induction false} HeadingSubIsLineWise(marker: string, tag: string, s: string)
    ensures HeadingSub(marker, tag, s, true) == RewriteLines(marker, tag, s)
    decreases |s|
  {
    if s != [] {
      var e := LineLength(s);
      HeadingSubAtLineStart(marker, tag, s);
      RewriteLinesStep(marker, tag, s);
      if e < |s| {
        HeadingSubIsLineWise(marker, tag, s[e + 1..]);
      }
    }
  }

  /** `RewriteLines` rewrites the first line and goes on after its `\n`. */
  lemma RewriteLinesStep(marker: string, tag: string, s: string)
    ensures var e := LineLength(s);
      RewriteLines(marker, tag, s)
        == RewriteLine(marker, tag, s[..e]) + (if e == |s| then "" else "\n" + RewriteLines(marker, tag, s[e + 1..]))
  {
  }

  /** The first line of `line + "\n" + rest` is `line`. */
  lemma LineLengthOfJoin(line: string, rest: string)
    requires '\n' !in line
    ensures LineLength(line + "\n" + rest) == |line|
    ensures LineLength(line) == |line|
  {
    var s := line + "\n" + rest;
    assert s[|line|] == '\n';
  }

  /** Pass over a single line followed by more text: the line is rewritten and the rest is
      passed over on its own. */
  lemma RewriteLinesCons(marker: string, tag: string, line: string, rest: string)
    requires '\n' !in line
    ensures RewriteLines(marker, tag, line + "\n" + rest)
            == RewriteLine(marker, tag, line) + "\n" + RewriteLines(marker, tag, rest)
    ensures RewriteLines(marker, tag, line) == RewriteLine(marker, tag, line)
  {
    var s := line + "\n" + rest;
    LineLengthOfJoin(line, rest);
    assert s[..|line|] == line;
    assert s[|line| + 1..] == rest;
    assert line[..|line|] == line;
  }

  lemma RewriteLineHasNoNewline(marker: string, tag: string, line: string)
    requires '\n' !in line && '\n' !in tag
    ensures '\n' !in RewriteLine(marker, tag, line)
  {
    if marker <= line && |marker| < |line| {
      var inner := line[|marker|..];
      assert forall c :: c in inner ==> c in line;
    }
  }

  /** A rewritten line starts with `<`, so a marker that does not start with `<` never matches
      it again. */
  lemma RewriteLineIdempotent(marker: string, tag: string, line: string)
    requires marker != [] && marker[0] != '<'
    ensures RewriteLine(marker, tag, RewriteLine(marker, tag, line)) == RewriteLine(marker, tag, line)
  {
    var once := RewriteLine(marker, tag, line);
    if once != line {
      assert once[0] == '<';
    }
  }

  /** Running a heading pass twice changes nothing more than running it once. */
  lemma {:induction false} RewriteLinesIdempotent(marker: string, tag: string, s: string)
    requires marker != [] && marker[0] != '<' && '\n' !in tag
    ensures RewriteLines(marker, tag, RewriteLines(marker, tag, s)) == RewriteLines(marker, tag, s)
    decreases |s|
  {
    var e := LineLength(s);
    var line := s[..e];
    RewriteLineHasNoNewline(marker, tag, line);
    RewriteLineIdempotent(marker, tag, line);
    var once := RewriteLine(marker, tag, line);
    if e == |s| {
      assert s == line;
      RewriteLinesCons(marker, tag, line, "");
      RewriteLinesCons(marker, tag, once, "");
    } else {
      var rest := s[e + 1..];
      assert s == line + "\n" + rest;
      RewriteLinesCons(marker, tag, line, rest);
      RewriteLinesCons(marker, tag, once, RewriteLines(marker, tag, rest));
      RewriteLinesIdempotent(marker, tag, rest);
    }
  }

  lemma HeadingPassIdempotent(marker: string, tag: string, s: string)
    requires marker != [] && marker[0] != '<' && '\n' !in marker && '\n' !in tag
    ensures HeadingSub(marker, tag, HeadingSub(marker, tag, s, true), true) == HeadingSub(marker, tag, s, true)
  {
    HeadingSubIsLineWise(marker, tag, s);
    HeadingSubIsLineWise(marker, tag, RewriteLines(marker, tag, s));
    RewriteLinesIdempotent(marker, tag, s);
  }

  /** Two markers neither of which is a prefix of the other never claim the same line, so their
      passes commute line by line. */
  lemma RewriteLineCommute(m1: string, t1: string, m2: string, t2: string, line: string)
    requires m1 != [] && m1[0] != '<' && m2 != [] && m2[0] != '<'
    requires !(m1 <= m2) && !(m2 <= m1)
    ensures RewriteLine(m1, t1, RewriteLine(m2, t2, line)) == RewriteLine(m2, t2, RewriteLine(m1, t1, line))
  {
    var a := RewriteLine(m2, t2, line);
    var b := RewriteLine(m1, t1, line);
    if a != line {
      assert a[0] == '<';
    }
    if b != line {
      assert b[0] == '<';
    }
  }

  lemma {:induction false} RewriteLinesCommute(m1: string, t1: string, m2: string, t2: string, s: string)
    requires m1 != [] && m1[0] != '<' && m2 != [] && m2[0] != '<'
    requires !(m1 <= m2) && !(m2 <= m1)
    requires '\n' !in t1 && '\n' !in t2
    ensures RewriteLines(m1, t1, RewriteLines(m2, t2, s)) == RewriteLines(m2, t2, RewriteLines(m1, t1, s))
    decreases |s|
  {
    var e := LineLength(s);
    var line := s[..e];
    if e == |s| {
      assert s == line;
      RewriteLastLineCommute(m1, t1, m2, t2, line);
    } else {
      var rest := s[e + 1..];
      assert s == line + "\n" + rest;
      RewriteLinesCommute(m1, t1, m2, t2, rest);
      RewriteFirstLineCommute(m1, t1, m2, t2, line, rest);
    }
  }

  /** The last line of a text commutes under the two rewrites. */
  lemma RewriteLastLineCommute(m1: string, t1: string, m2: string, t2: string, line: string)
    requires m1 != [] && m1[0] != '<' && m2 != [] && m2[0] != '<'
    requires !(m1 <= m2) && !(m2 <= m1)
    requires '\n' !in t1 && '\n' !in t2 && '\n' !in line
    ensures RewriteLines(m1, t1, RewriteLines(m2, t2, line)) == RewriteLines(m2, t2, RewriteLines(m1, t1, line))
  {
    var l2 := RewriteLine(m2, t2, line);
    var l1 := RewriteLine(m1, t1, line);
    RewriteLineHasNoNewline(m2, t2, line);
    RewriteLineHasNoNewline(m1, t1, line);
    RewriteLineCommute(m1, t1, m2, t2, line);
    RewriteLinesCons(m2, t2, line, "");
    RewriteLinesCons(m1, t1, l2, "");
    RewriteLinesCons(m1, t1, line, "");
    RewriteLinesCons(m2, t2, l1, "");
  }

  /** A first line commutes under the two rewrites when the rest of the text does. */
  lemma RewriteFirstLineCommute(m1: string, t1: string, m2: string, t2: string, line: string, rest: string)
    requires m1 != [] && m1[0] != '<' && m2 != [] && m2[0] != '<'
    requires !(m1 <= m2) && !(m2 <= m1)
    requires '\n' !in t1 && '\n' !in t2 && '\n' !in line
    requires RewriteLines(m1, t1, RewriteLines(m2, t2, rest)) == RewriteLines(m2, t2, RewriteLines(m1, t1, rest))
    ensures var s := line + "\n" + rest;
      RewriteLines(m1, t1, RewriteLines(m2, t2, s)) == RewriteLines(m2, t2, RewriteLines(m1, t1, s))
  {
    var l2 := RewriteLine(m2, t2, line);
    var l1 := RewriteLine(m1, t1, line);
    RewriteLineHasNoNewline(m2, t2, line);
    RewriteLineHasNoNewline(m1, t1, line);
    RewriteLineCommute(m1, t1, m2, t2, line);
    RewriteLinesCons(m2, t2, line, rest);
    RewriteLinesCons(m1, t1, l2, RewriteLines(m2, t2, rest));
    RewriteLinesCons(m1, t1, line, rest);
    RewriteLinesCons(m2, t2, l1, RewriteLines(m1, t1, rest));
  }

  /** The `##` and `###` passes touch disjoint sets of lines, so their order does not matter. */
  lemma HeadingPassesCommute(s: string)
    ensures H3Pass(H2Pass(s)) == H2Pass(H3Pass(s))
  {
    assert "### "[2] != "## "[2];
    HeadingSubIsLineWise("## ", "h2", s);
    HeadingSubIsLineWise("### ", "h3", s);
    HeadingSubIsLineWise("### ", "h3", RewriteLines("## ", "h2", s));
    HeadingSubIsLineWise("## ", "h2", RewriteLines("### ", "h3", s));
    RewriteLinesCommute("### ", "h3", "## ", "h2", s);
  }

  /** The pass acts on each line separately: the first line is rewritten on its own, the `\n` is
      kept and the rest is passed over from a fresh line start. */
  lemma HeadingSubPerLine(marker: string, tag: string, line: string, rest: string)
    requires '\n' !in marker && '\n' !in line
    ensures HeadingSub(marker, tag, line + "\n" + rest, true)
            == RewriteLine(marker, tag, line) + "\n" + HeadingSub(marker, tag, rest, true)
    ensures HeadingSub(marker, tag, line, true) == RewriteLine(marker, tag, line)
  {
    HeadingSubIsLineWise(marker, tag, line + "\n" + rest);
    HeadingSubIsLineWise(marker, tag, rest);
    HeadingSubIsLineWise(marker, tag, line);
    RewriteLinesCons(marker, tag, line, rest);
  }

  /** `## t` becomes `<h2>t</h2>` for every non-empty single-line `t`. */
  lemma H2Line(t: string)
    requires t != [] && '\n' !in t
    ensures H2Pass("## " + t) == "<h2>" + t + "</h2>"
  {
    HeadingSubPerLine("## ", "h2", "## " + t, "");
    assert ("## " + t)[3..] == t;
  }

  /** `### t` becomes `<h3>t</h3>` for every non-empty single-line `t`. */
  lemma H3Line(t: string)
    requires t != [] && '\n' !in t
    ensures H3Pass("### " + t) == "<h3>" + t + "</h3>"
  {
    HeadingSubPerLine("### ", "h3", "### " + t, "");
    assert ("### " + t)[4..] == t;
  }

  /** The `##` pass leaves a `### t` line alone (its third character is `#`, not a space) and
      leaves a bare `## ` alone (`(.+)` needs a character). */
  lemma H2PassSkips(t: string)
    requires '\n' !in t
    ensures H2Pass("### " + t) == "### " + t
    ensures H2Pass("## ") == "## "
  {
    HeadingSubPerLine("## ", "h2", "### " + t, "");
    assert ("### " + t)[2] == '#';
    assert !("## " <= "### " + t);
    HeadingSubPerLine("## ", "h2", "## ", "");
  }

  /** A line that starts with neither `## ` nor `### ` is kept by both passes, and the text after
      it is passed over on its own. */
  lemma PlainLineKept(line: string, rest: string)
    requires '\n' !in line && !("## " <= line) && !("### " <= line)
    ensures H2Pass(line + "\n" + rest) == line + "\n" + H2Pass(rest)
    ensures H3Pass(line + "\n" + rest) == line + "\n" + H3Pass(rest)
  {
    HeadingSubPerLine("## ", "h2", line, rest);
    HeadingSubPerLine("### ", "h3", line, rest);
  }

  /** A text in which the marker's first character never occurs passes through unchanged. */
  lemma {:induction false} HeadingSubNoMarker(marker: string, tag: string, s: string, atLineStart: bool)
    requires marker != [] && marker[0] !in s
    ensures HeadingSub(marker, tag, s, atLineStart) == s
    decreases |s|
  {
    if s != [] {
      assert !(marker <= s);
      HeadingSubNoMarker(marker, tag, s[1..], s[0] == '\n');
    }
  }
}

=== FILE: naming.dfy ===
/** How the stored copies, the rendered output and their URLs are named, and how the two
    read routes pick a MIME type (app.py:274-307, 321-322, 343-346, 364-367). */
module Naming {
  import opened Results
  import opened Strings
  import opened Uploads

  const UploadFolder := "uploads"
  const OutputFolder := "outputs"
  const ArchiveFolder := "/var/www/test.mbiri.net/html/original_papers/sst_uploads"

  /** Public address of the archive folder, used by the JSON reply and the rendered link. */
  const ArchiveBaseUrl := "https://test.mbiri.net/original_papers/sst_uploads/"

  /** Path prefix of the download route. */
  const DownloadRoute := "/api/download/"

  predicate IsLowerHexDigit(c: char) {
    '0' <= c <= '9' || 'a' <= c <= 'f'
  }

  /** The shape of `str(uuid.uuid4())`: 32 lower-case hex digits grouped 8-4-4-4-12, version
      digit `4`, variant digit one of `8`, `9`, `a`, `b`. */
  predicate IsUuidText(t: string) {
    && |t| == 36
    && (forall i :: 0 <= i < |t| ==>
          if i == 8 || i == 13 || i == 18 || i == 23 then t[i] == '-' else IsLowerHexDigit(t[i]))
    && t[14] == '4'
    && t[19] in "89ab"
  }

  lemma UuidHasNoUnderscore(t: string)
    requires IsUuidText(t)
    ensures '_' !in t && t[0] != '/'
  {
  }

  /** `os.path.join(folder, name)` for two components. */
  function Join(folder: string, name: string): string {
    if name != [] && name[0] == '/' then name
    else if folder == [] || folder[|folder| - 1] == '/' then folder + name
    else folder + "/" + name
  }

  /** The name of both the working copy and the archive copy: `{id}_{name}`. */
  function StoredName(token: string, name: string): string {
    token + "_" + name
  }

  /** The text before the first `_`: where a stored or output name keeps its token. */
  function UpToUnderscore(s: string): (r: string)
    ensures r <= s && '_' !in r
    ensures |r| < |s| ==> s[|r|] == '_'
  {
    if s == [] || s[0] == '_' then [] else [s[0]] + UpToUnderscore(s[1..])
  }

  lemma {:induction false} UpToUnderscoreOfJoin(token: string, rest: string)
    requires '_' !in token
    ensures UpToUnderscore(token + "_" + rest) == token
  {
    if token != [] {
      assert (token + "_" + rest)[1..] == token[1..] + "_" + rest;
      UpToUnderscoreOfJoin(token[1..], rest);
    } else {
      assert (token + "_" + rest)[0] == '_';
    }
  }

  /** The token a stored name was made from. */
  function StoredToken(stored: string): string {
    UpToUnderscore(stored)
  }

  /** `filename.rsplit('.', 1)[0]`: the whole name when it has no dot. */
  function Stem(name: string): (r: string)
    ensures '.' in name ==> r + "." + RSplitOnce(name, '.')[1] == name
    ensures '.' !in name ==> r == name
  {
    RSplitOnce(name, '.')[0]
  }

  /** The two artifact kinds; `format == 'pdf'` selects PDF and every other value HTML. */
  datatype OutputFormat = Html | Pdf

  function FormatOf(field: string): (f: OutputFormat)
    ensures f == Pdf <==> field == "pdf"
  {
    if field == "pdf" then Pdf else Html
  }

  function Suffix(f: OutputFormat): string {
    match f
    case Pdf => ".pdf"
    case Html => ".html"
  }

  const OutputPrefix := "simplified_"

  /** `simplified_{id}_{stem}` plus `.pdf` or `.html`. */
  function OutputName(token: string, stem: string, f: OutputFormat): string {
    OutputPrefix + token + "_" + stem + Suffix(f)
  }

  /** The parts an output name is built from. */
  datatype OutputParts = OutputParts(token: string, stem: string, format: OutputFormat)

  /** Reads the part of an output name after `{id}_` into the stem and format. */
  function ParseTail(token: string, tail: string): (r: Option<OutputParts>)
    ensures r.Some? ==> r.value.token == token && r.value.stem + Suffix(r.value.format) == tail
  {
    if EndsWith(tail, ".pdf") then
      assert tail == tail[..|tail| - 4] + ".pdf";
      Some(OutputParts(token, tail[..|tail| - 4], Pdf))
    else if EndsWith(tail, ".html") then
      assert tail == tail[..|tail| - 5] + ".html";
      Some(OutputParts(token, tail[..|tail| - 5], Html))
    else None
  }

  /** Reads an output name back into its token, stem and format. */
  function ParseOutputName(n: string): (r: Option<OutputParts>)
    ensures r.Some? ==> OutputName(r.value.token, r.value.stem, r.value.format) == n
  {
    if !(OutputPrefix <= n) then None
    else
      var rest := n[|OutputPrefix|..];
      var token := UpToUnderscore(rest);
      if |token| == |rest| then None
      else
        var tail := rest[|token| + 1..];
        assert n == OutputPrefix + token + "_" + tail;
        ParseTail(token, tail)
  }

  lemma SuffixRecognised(stem: string, f: OutputFormat)
    ensures var tail := stem + Suffix(f);
      && (EndsWith(tail, ".pdf") <==> f == Pdf)
      && (f == Pdf ==> tail[..|tail| - 4] == stem)
      && (f == Html ==> EndsWith(tail, ".html") && tail[..|tail| - 5] == stem)
  {
    var tail := stem + Suffix(f);
    if f == Html {
      assert tail[|tail| - 4..] == "html";
      assert tail[|tail| - 5..] == ".html";
    } else {
      assert tail[|tail| - 4..] == ".pdf";
    }
  }

  /** A name made of the prefix, an underscore-free token, `_` and any tail is read by its tail. */
  lemma ParseOutputNameOf(token: string, tail: string)
    requires '_' !in token
    ensures ParseOutputName(OutputPrefix + token + "_" + tail) == ParseTail(token, tail)
  {
    var n := OutputPrefix + token + "_" + tail;
    var rest := token + "_" + tail;
    assert OutputPrefix <= n && n[|OutputPrefix|..] == rest by {
      assert n == OutputPrefix + rest;
    }
    UpToUnderscoreOfJoin(token, tail);
    assert rest[|token| + 1..] == tail;
  }

  /** Round trip: every output name built from a uuid token reads back into the token, stem and
      format it was built from. */
  lemma ParseOutputNameRoundTrip(token: string, stem: string, f: OutputFormat)
    requires IsUuidText(token)
    ensures ParseOutputName(OutputName(token, stem, f)) == Some(OutputParts(token, stem, f))
  {
    UuidHasNoUnderscore(token);
    var tail := stem + Suffix(f);
    assert OutputName(token, stem, f) == OutputPrefix + token + "_" + tail;
    ParseOutputNameOf(token, tail);
    SuffixRecognised(stem, f);
  }

  /** `download_url`: the route prefix followed by the output name. */
  function DownloadUrl(output: string): string {
    DownloadRoute + output
  }

  /** The `<filename>` the download route receives for a URL under its prefix. Flask's default
      converter matches one non-empty path segment, so an empty rest or one holding `/` reaches
      no route. */
  function RouteFilename(url: string): (r: Option<string>)
    ensures r.Some? ==> DownloadUrl(r.value) == url && r.value != "" && '/' !in r.value
    ensures DownloadRoute <= url && |url| > |DownloadRoute| && '/' !in url[|DownloadRoute|..] ==> r.Some?
  {
    if DownloadRoute <= url && |url| > |DownloadRoute| && '/' !in url[|DownloadRoute|..] then
      assert url == DownloadRoute + url[|DownloadRoute|..];
      Some(url[|DownloadRoute|..])
    else None
  }

  /** An output name has a `/` only where the upload name has one. */
  lemma OutputNameWithoutSlash(token: string, name: string, f: OutputFormat)
    requires IsUuidText(token) && '/' !in name
    ensures '/' !in OutputName(token, Stem(name), f)
  {
    var stem := Stem(name);
    assert '/' !in stem by {
      if '.' in name {
        assert stem == name[..|stem|];
      }
    }
    var n := OutputName(token, stem, f);
    assert n == OutputPrefix + token + "_" + stem + Suffix(f);
    forall i | 0 <= i < |n|
      ensures n[i] != '/'
    {
      if i < |OutputPrefix| {
        assert n[i] == OutputPrefix[i];
      } else if i < |OutputPrefix| + |token| {
        assert n[i] == token[i - |OutputPrefix|];
      } else if i == |OutputPrefix| + |token| {
      } else if i < |OutputPrefix| + |token| + 1 + |stem| {
        assert n[i] == stem[i - |OutputPrefix| - |token| - 1];
      } else {
        assert n[i] == Suffix(f)[i - |OutputPrefix| - |token| - 1 - |stem|];
      }
    }
  }

  /** `original_paper_url`. */
  function OriginalPaperUrl(stored: string): string {
    ArchiveBaseUrl + stored
  }

  /** Traceability: the output name, the download URL and the stored copies all carry the same
      token, and the download route gets back exactly the output name. */
  lemma SameTokenEverywhere(token: string, name: string, f: OutputFormat)
    requires IsUuidText(token)
    ensures var out := OutputName(token, Stem(name), f);
      && StoredToken(StoredName(token, name)) == token
      && ParseOutputName(out).Some? && ParseOutputName(out).value.token == token
      && ('/' !in name ==> RouteFilename(DownloadUrl(out)) == Some(out))
  {
    UuidHasNoUnderscore(token);
    UpToUnderscoreOfJoin(token, name);
    ParseOutputNameRoundTrip(token, Stem(name), f);
    var out := OutputName(token, Stem(name), f);
    if '/' !in name {
      OutputNameWithoutSlash(token, name, f);
      assert DownloadRoute <= DownloadUrl(out) && DownloadUrl(out)[|DownloadRoute|..] == out;
    }
  }

  /** MIME type of the download route. */
  function DownloadMime(filename: string): string {
    if EndsWith(filename, ".pdf") then "application/pdf" else "text/html"
  }

  /** MIME type of the original-paper route, as written: the suffix test is case-sensitive. */
  function OriginalMime(filename: string): string {
    if EndsWith(filename, ".pdf") then "application/pdf" else "text/plain"
  }

  /** The download route serves every output the application names with the type of its format. */
  lemma DownloadMimeFollowsFormat(token: string, stem: string, f: OutputFormat)
    ensures DownloadMime(OutputName(token, stem, f)) == (if f == Pdf then "application/pdf" else "text/html")
  {
    var n := OutputName(token, stem, f);
    assert n == (OutputPrefix + token + "_" + stem) + Suffix(f);
    if f == Html {
      assert n[|n| - 4..] == "html";
    } else {
      assert n[|n| - 4..] == ".pdf";
    }
  }

  lemma {:induction false} LowerAppend(a: string, b: string)
    ensures Lower(a + b) == Lower(a) + Lower(b)
  {
  }

  /** A stored upload whose suffix is upper case, `paper.PDF`, is dispatched to the PDF reader
      but typed `text/plain` by the suffix test as written. */
  lemma OriginalMimeIsCaseSensitive(token: string)
    ensures Dispatch("paper.PDF") == PdfPages
    ensures OriginalMime(StoredName(token, "paper.PDF")) == "text/plain"
  {
    RSplitOnceOfJoin("paper", '.', "PDF");
    assert "paper.PDF" == "paper" + ['.'] + "PDF";
    assert Lower("PDF") == "pdf";
    var n := StoredName(token, "paper.PDF");
    assert n[|n| - 4..] == ".PDF";
  }

  /** On that upload the two suffix tests disagree: as written the route says `text/plain`, the
      intended test says `application/pdf`. */
  lemma OriginalMimeDisagreement(token: string)
    ensures var n := StoredName(token, "paper.PDF");
      OriginalMime(n) == "text/plain" && OriginalMimeIntended(n) == "application/pdf"
  {
    OriginalMimeIsCaseSensitive(token);
    OriginalMimeIntendedAgreesWithDispatch(token, "paper.PDF");
  }

  /** The MIME choice the original-paper route evidently intends: the same case-insensitive
      suffix test that dispatch applies. */
  function OriginalMimeIntended(filename: string): string {
    if EndsWith(Lower(filename), ".pdf") then "application/pdf" else "text/plain"
  }

  lemma LowerSuffix(s: string, k: nat)
    requires k <= |s|
    ensures Lower(s)[|s| - k..] == Lower(s[|s| - k..])
  {
  }

  /** A stored name ends, once lower-cased, in `.pdf` exactly when the three-letter suffix of the
      upload does. */
  lemma StoredSuffixLowered(token: string, a: string, e: string)
    requires |e| == 3
    ensures EndsWith(Lower(StoredName(token, a + ['.'] + e)), ".pdf") <==> Lower(e) == "pdf"
  {
    var n := StoredName(token, a + ['.'] + e);
    var ln := Lower(n);
    assert n[|n| - 4..] == ['.'] + e by {
      assert n == (token + "_" + a) + (['.'] + e);
    }
    assert ln[|ln| - 4..] == ['.'] + Lower(e) by {
      LowerSuffix(n, 4);
      LowerAppend(['.'], e);
    }
    assert ['.'] + Lower(e) == ".pdf" <==> Lower(e) == "pdf" by {
      if ['.'] + Lower(e) == ".pdf" {
        assert Lower(e) == (['.'] + Lower(e))[1..];
      }
    }
  }

  /** For every stored copy of an accepted upload, the intended MIME choice says PDF exactly when
      dispatch sends the name to the PDF reader. */
  lemma OriginalMimeIntendedAgreesWithDispatch(token: string, name: string)
    requires AllowedFile(name)
    ensures OriginalMimeIntended(StoredName(token, name)) == "application/pdf"
            <==> Dispatch(name) == PdfPages
  {
    var parts := RSplitOnce(name, '.');
    assert |Lower(parts[1])| == 3;
    StoredSuffixLowered(token, parts[0], parts[1]);
  }
}

=== FILE: paragraphs.dfy ===
/** The paragraph passes of `generate_html_output` (app.py:118-122): blank lines become paragraph
    breaks, the body is wrapped in one paragraph, and empty paragraphs are deleted with
    `re.sub(r'<p>\s*</p>', '', text)`. Both `re.sub` calls are scanned left to right, leftmost match
    first, without overlap. */
module Paragraphs {
  import opened Results
  import opened Strings

  /** `re.sub(r'\n\n', '</p><p>', s)`. */
  function ParaSub(s: string): string
    decreases |s|
  {
    if s == [] then []
    else if "\n\n" <= s then "</p><p>" + ParaSub(s[2..])
    else [s[0]] + ParaSub(s[1..])
  }

  /** Two newlines in a row start at index `i`. */
  predicate NewlinePairAt(s: string, i: int) {
    0 <= i && i + 1 < |s| && s[i] == '\n' && s[i + 1] == '\n'
  }

  predicate NoNewlinePair(s: string) {
    forall i :: 0 <= i < |s| ==> !NewlinePairAt(s, i)
  }

  /** After the pass no `\n\n` is left, even where the input had three newlines in a row; the
      output starts with a newline only where the input starts with a lone one. */
  lemma {:induction false} ParaSubLeavesNoPair(s: string)
    ensures NoNewlinePair(ParaSub(s))
    ensures ParaSub(s) == [] <==> s == []
    ensures ParaSub(s) != [] ==> ParaSub(s)[0] == (if "\n\n" <= s then '<' else s[0])
    decreases |s|
  {
    if s != [] {
      var r := ParaSub(s);
      if "\n\n" <= s {
        var rest := ParaSub(s[2..]);
        ParaSubLeavesNoPair(s[2..]);
        assert r == "</p><p>" + rest;
        forall i
          ensures !NewlinePairAt(r, i)
        {
          if i >= 7 {
            assert !NewlinePairAt(rest, i - 7);
          }
        }
      } else {
        var rest := ParaSub(s[1..]);
        ParaSubLeavesNoPair(s[1..]);
        assert r == [s[0]] + rest;
        forall i
          ensures !NewlinePairAt(r, i)
        {
          if i >= 1 {
            assert !NewlinePairAt(rest, i - 1);
          }
        }
      }
    }
  }

  /** Text without a newline is copied by the pass. */
  lemma {:induction false} ParaSubPlain(g: string, w: string)
    requires '\n' !in g
    ensures ParaSub(g + w) == g + ParaSub(w)
  {
    if g == [] {
      assert g + w == w;
    } else {
      var s := g + w;
      assert s[0] == g[0];
      assert s[1..] == g[1..] + w;
      ParaSubPlain(g[1..], w);
    }
  }

  /** A line followed by a blank line closes a paragraph and opens the next. */
  lemma ParaSubAtBlankLine(g: string, w: string)
    requires '\n' !in g
    ensures ParaSub(g + "\n\n" + w) == g + ("</p><p>" + ParaSub(w))
  {
    assert g + "\n\n" + w == g + ("\n\n" + w);
    ParaSubPlain(g, "\n\n" + w);
    ParaSubAtPair(w);
  }

  /** A blank line at the front becomes `</p><p>`. */
  lemma ParaSubAtPair(w: string)
    ensures ParaSub("\n\n" + w) == "</p><p>" + ParaSub(w)
  {
    assert ("\n\n" + w)[2..] == w;
  }

  /** The inverse rewrite: every `</p><p>` back to a blank line. */
  function Unpara(t: string): string
    decreases |t|
  {
    if t == [] then []
    else if "</p><p>" <= t then "\n\n" + Unpara(t[7..])
    else [t[0]] + Unpara(t[1..])
  }

  /** Round trip: on text without `<`, turning every `</p><p>` back into `\n\n` restores the
      input, so the pass changes nothing but the blank-line pairs. */
  lemma {:induction false} ParaRoundTrip(s: string)
    requires '<' !in s
    ensures Unpara(ParaSub(s)) == s
    decreases |s|
  {
    if s != [] {
      if "\n\n" <= s {
        ParaRoundTrip(s[2..]);
        var t := "</p><p>" + ParaSub(s[2..]);
        assert t[7..] == ParaSub(s[2..]);
        assert s == "\n\n" + s[2..];
      } else {
        ParaRoundTrip(s[1..]);
        var t := [s[0]] + ParaSub(s[1..]);
        assert t[1..] == ParaSub(s[1..]);
        assert !("</p><p>" <= t);
      }
    }
  }

  lemma {:induction false} ParaSubWithoutPairs(s: string)
    requires NoNewlinePair(s)
    ensures ParaSub(s) == s
    decreases |s|
  {
    if s != [] {
      assert !NewlinePairAt(s, 0);
      forall i
        ensures !NewlinePairAt(s[1..], i)
      {
        if NewlinePairAt(s[1..], i) {
          assert NewlinePairAt(s, i + 1);
        }
      }
      ParaSubWithoutPairs(s[1..]);
    }
  }

  /** `<p>`, a run of whitespace and `</p>` form the first `n` characters of `s`. */
  predicate IsEmptyPara(s: string, n: nat) {
    && 7 <= n <= |s|
    && s[..3] == "<p>"
    && (forall i :: 3 <= i < n - 4 ==> IsSpace(s[i]))
    && s[n - 4..n] == "</p>"
  }

  /** The match of `<p>\s*</p>` at the start of `s`, as its length. The greedy `\s*` never needs
      to give characters back: `</p>` starts with `<`, which is not whitespace. */
  function EmptyParaAt(s: string): (r: Option<nat>)
    ensures r.Some? ==> 7 <= r.value <= |s|
  {
    if "<p>" <= s then
      var j := 3 + SpaceRun(s[3..]);
      if "</p>" <= s[j..] then Some(j + 4) else None
    else None
  }

  /** The scanner finds exactly the empty paragraph the pattern describes, and there is at most
      one at each position. */
  lemma EmptyParaExactly(s: string, n: nat)
    ensures EmptyParaAt(s) == Some(n) <==> IsEmptyPara(s, n)
  {
    if "<p>" <= s {
      var run := SpaceRun(s[3..]);
      var j := 3 + run;
      if EmptyParaAt(s) == Some(n) {
        assert s[..3] == "<p>";
        assert s[n - 4..n] == s[j..][..4];
        forall i | 3 <= i < n - 4
          ensures IsSpace(s[i])
        {
          assert s[i] == s[3..][i - 3];
        }
      }
      if IsEmptyPara(s, n) {
        assert s[n - 4] == '<';
        assert !IsSpace(s[n - 4]);
        forall i | 0 <= i < n - 7
          ensures IsSpace(s[3..][i])
        {
          assert s[3..][i] == s[3 + i];
        }
        assert s[j..][..4] == s[n - 4..n];
      }
    }
  }

  /** `re.sub(r'<p>\s*</p>', '', s)`. */
  function Cleanup(s: string): (r: string)
    ensures |r| <= |s|
    decreases |s|
  {
    if s == [] then []
    else
      match EmptyParaAt(s)
      case Some(n) => Cleanup(s[n..])
      case None => [s[0]] + Cleanup(s[1..])
  }

  /** `<p` starts at index `i`. */
  predicate OpenTagAt(g: string, i: int) {
    0 <= i && i + 1 < |g| && g[i] == '<' && g[i + 1] == 'p'
  }

  /** No `<p>` starts in `g`, whatever follows it: every `<` in `g` is followed, inside `g`, by
      something other than `p`. */
  predicate NoOpenTag(g: string) {
    && (forall i :: 0 <= i < |g| ==> !OpenTagAt(g, i))
    && (g != [] ==> g[|g| - 1] != '<')
  }

  lemma PlainHasNoOpenTag(g: string)
    requires '<' !in g
    ensures NoOpenTag(g)
  {
  }

  /** Joining two texts in which no `<p>` starts gives another: the last character of the first
      is not `<`, so no tag can start across the seam. */
  lemma NoOpenTagAppend(a: string, b: string)
    requires NoOpenTag(a) && NoOpenTag(b)
    ensures NoOpenTag(a + b)
  {
    var s := a + b;
    forall i | 0 <= i < |s|
      ensures !OpenTagAt(s, i)
    {
      if i + 1 < |a| {
        assert !OpenTagAt(a, i);
      } else if i + 1 == |a| {
        assert s[i] == a[|a| - 1];
      } else {
        assert !OpenTagAt(b, i - |a|);
      }
    }
  }

  /** Text in which no `<p>` starts holds no empty paragraph to delete and is copied. */
  lemma {:induction false} CleanupPlain(g: string, w: string)
    requires NoOpenTag(g)
    ensures Cleanup(g + w) == g + Cleanup(w)
  {
    if g == [] {
      assert g + w == w;
    } else {
      CleanupPlainStep(g, w);
      NoOpenTagOfTail(g);
      CleanupPlain(g[1..], w);
      ConsAppend(g, Cleanup(w));
    }
  }

  lemma CleanupPlainStep(g: string, w: string)
    requires g != [] && NoOpenTag(g)
    ensures Cleanup(g + w) == [g[0]] + Cleanup(g[1..] + w)
  {
    var s := g + w;
    NoOpenTagAtHead(g, w);
    CleanupCopyStep(s);
    assert s[1..] == g[1..] + w;
  }

  lemma NoOpenTagAtHead(g: string, w: string)
    requires g != [] && NoOpenTag(g)
    ensures EmptyParaAt(g + w) == None
  {
    var s := g + w;
    assert s[0] == g[0];
    assert !OpenTagAt(g, 0);
    if g[0] == '<' {
      assert s[1] == g[1];
    }
    assert !("<p>" <= s);
  }

  lemma NoOpenTagOfTail(g: string)
    requires g != [] && NoOpenTag(g)
    ensures NoOpenTag(g[1..])
  {
    var t := g[1..];
    forall i | 0 <= i < |t|
      ensures !OpenTagAt(t, i)
    {
      assert !OpenTagAt(g, i + 1);
    }
  }

  lemma CleanupDropsEmptyPara(ws: string, w: string)
    requires forall i :: 0 <= i < |ws| ==> IsSpace(ws[i])
    ensures Cleanup("<p>" + ws + "</p>" + w) == Cleanup(w)
  {
    var s := "<p>" + ws + "</p>" + w;
    var n := |ws| + 7;
    assert s[..3] == "<p>";
    assert s[n - 4..n] == "</p>";
    forall i | 3 <= i < n - 4
      ensures IsSpace(s[i])
    {
      assert s[i] == ws[i - 3];
    }
    EmptyParaExactly(s, n);
    assert s[n..] == w;
  }

  lemma CleanupClosingTag()
    ensures Cleanup("</p>") == "</p>"
  {
    var g := "</p>";
    assert !OpenTagAt(g, 0);
    assert NoOpenTag(g);
    CleanupPlain(g, "");
    assert g + "" == g;
  }

  /** One wrapped paragraph: it disappears when its content is only whitespace and is kept as it
      is otherwise (for content without `<`). */
  lemma CleanupWrapped(t: string)
    requires '<' !in t
    ensures NonSpaceCount(t) == 0 ==> Cleanup(Wrap(t)) == ""
    ensures NonSpaceCount(t) != 0 ==> Cleanup(Wrap(t)) == Wrap(t)
  {
    if NonSpaceCount(t) == 0 {
      CleanupBlankPara(t);
    } else {
      CleanupVisiblePara(t);
    }
  }

  lemma CleanupBlankPara(t: string)
    requires NonSpaceCount(t) == 0
    ensures Cleanup(Wrap(t)) == ""
  {
    AllSpaceOfZeroCount(t);
    CleanupDropsEmptyPara(t, "");
    assert "<p>" + t + "</p>" + "" == Wrap(t);
  }

  lemma CleanupVisiblePara(t: string)
    requires '<' !in t && NonSpaceCount(t) != 0
    ensures Cleanup(Wrap(t)) == Wrap(t)
  {
    var w := t + "</p>";
    WrapSplit(t);
    VisibleParaNotEmpty(t, "");
    assert t + "</p>" + "" == w;
    CleanupKeepsOpenTag(w);
    PlainHasNoOpenTag(t);
    CleanupPlain(t, "</p>");
    CleanupClosingTag();
  }

  /** A paragraph with visible, tag-free content is kept, and the pass goes on behind it. */
  lemma CleanupVisibleLead(t: string, w: string)
    requires '<' !in t && NonSpaceCount(t) != 0
    ensures Cleanup("<p>" + (t + ("</p>" + w))) == "<p>" + (t + ("</p>" + Cleanup(w)))
  {
    VisibleParaNotEmpty(t, w);
    assert t + "</p>" + w == t + ("</p>" + w);
    CleanupKeepsOpenTag(t + ("</p>" + w));
    PlainHasNoOpenTag(t);
    CleanupPlain(t, "</p>" + w);
    CleanupAfterClosingTag(w);
  }

  /** Two paragraphs, the first with visible tag-free content and the second kept on its own,
      are both kept. */
  lemma CleanupTwoParas(x: string, y: string)
    requires '<' !in x && NonSpaceCount(x) != 0 && Cleanup(Wrap(y)) == Wrap(y)
    ensures Cleanup(Wrap(x + ("</p><p>" + y))) == Wrap(x + ("</p><p>" + y))
  {
    TwoParasSplit(x, y);
    CleanupVisibleLead(x, Wrap(y));
  }

  lemma TwoParasSplit(x: string, y: string)
    ensures Wrap(x + ("</p><p>" + y)) == "<p>" + (x + ("</p>" + Wrap(y)))
  {
    assert "</p><p>" + y + "</p>" == "</p>" + Wrap(y);
  }

  /** A closing tag is copied, and the pass goes on behind it. */
  lemma CleanupAfterClosingTag(w: string)
    ensures Cleanup("</p>" + w) == "</p>" + Cleanup(w)
  {
    var g := "</p>";
    assert !OpenTagAt(g, 0);
    assert NoOpenTag(g);
    CleanupPlain(g, w);
  }

  lemma WrapSplit(t: string)
    ensures Wrap(t) == "<p>" + (t + "</p>")
  {
  }

  /** A paragraph holding a visible character that is not `<` is not empty, whatever follows it. */
  lemma VisibleParaNotEmpty(t: string, rest: string)
    requires '<' !in t && NonSpaceCount(t) != 0
    ensures EmptyParaAt("<p>" + (t + "</p>" + rest)) == None
  {
    var w := t + "</p>" + rest;
    var s := "<p>" + w;
    assert s[3..] == w;
    var run := SpaceRun(w);
    if run >= |t| {
      forall i | 0 <= i < |t|
        ensures IsSpace(t[i])
      {
        assert t[i] == w[i];
      }
      NonSpaceCountAllSpace(t);
    }
    assert w[run] == t[run];
  }

  lemma {:induction false} AllSpaceOfZeroCount(t: string)
    requires NonSpaceCount(t) == 0
    ensures forall i :: 0 <= i < |t| ==> IsSpace(t[i])
  {
    if t != [] {
      AllSpaceOfZeroCount(t[1..]);
      forall i | 1 <= i < |t|
        ensures IsSpace(t[i])
      {
        assert t[i] == t[1..][i - 1];
      }
    }
  }

  /** `'<p>' + text + '</p>'`: the whole body as one paragraph. */
  function Wrap(t: string): string {
    "<p>" + t + "</p>"
  }

  /** A paragraph whose content opens with a tag other than a closing one is kept, and the
      scan goes on inside it. */
  lemma CleanupKeepsTaggedPara(x: string)
    requires 2 <= |x| && x[0] == '<' && x[1] != '/'
    ensures Cleanup(Wrap(x)) == "<p>" + Cleanup(x + "</p>")
  {
    WrapSplit(x);
    TaggedParaNotEmpty(x);
    CleanupKeepsOpenTag(x + "</p>");
  }

  /** An opening tag that does not start an empty paragraph is copied. */
  lemma CleanupKeepsOpenTag(w: string)
    requires EmptyParaAt("<p>" + w) == None
    ensures Cleanup("<p>" + w) == "<p>" + Cleanup(w)
  {
    OpenTagParts(w);
    CleanupCopyStep("<p>" + w);
    PlainHasNoOpenTag("p>");
    CleanupPlain("p>", w);
    OpenTagSplit(Cleanup(w));
  }

  lemma OpenTagParts(w: string)
    ensures ("<p>" + w)[0] == '<'
    ensures ("<p>" + w)[1..] == "p>" + w
  {
  }

  lemma OpenTagSplit(c: string)
    ensures ['<'] + ("p>" + c) == "<p>" + c
  {
    assert ['<'] + "p>" == "<p>";
  }

  lemma TaggedParaNotEmpty(x: string)
    requires 2 <= |x| && x[0] == '<' && x[1] != '/'
    ensures EmptyParaAt("<p>" + (x + "</p>")) == None
  {
    var w := x + "</p>";
    var s := "<p>" + w;
    assert s[3..] == w;
    assert w[0] == '<' && w[1] != '/';
    assert SpaceRun(w) == 0;
    assert !("</p>" <= w);
  }

  /** Where no empty paragraph starts, the pass copies one character and goes on. */
  lemma CleanupCopyStep(s: string)
    requires s != [] && EmptyParaAt(s) == None
    ensures Cleanup(s) == [s[0]] + Cleanup(s[1..])
  {
  }

  /** A deletion can bring a new empty paragraph together that the same pass does not revisit:
      the cleanup is not idempotent. */
  lemma CleanupNotIdempotent(ws: string)
    requires forall i :: 0 <= i < |ws| ==> IsSpace(ws[i])
    ensures Cleanup(Wrap(Wrap(ws))) == Wrap("")
    ensures Cleanup(Wrap("")) == ""
  {
    CleanupKeepsTaggedPara(Wrap(ws));
    CleanupDropsEmptyPara(ws, "</p>");
    assert Wrap(ws) + "</p>" == "<p>" + ws + "</p>" + "</p>";
    CleanupClosingTag();
    assert "<p>" + "</p>" == Wrap("");
    CleanupDropsEmptyPara("", "");
    assert "<p>" + "" + "</p>" + "" == Wrap("");
  }
}

=== FILE: results.dfy ===
/** Failure-carrying values shared by every module of the model. */
module Results {

  /** A value that may be absent, as Python's `None` or an optional form field. */
  datatype Option<T> = None | Some(value: T)

  /** The outcome of a step that can raise: `Failure` carries `str(e)` of the exception. */
  datatype Result<T> = Success(value: T) | Failure(error: string)
}

=== FILE: simplify.dfy ===
/** The `/api/simplify` route (app.py:252-331) and the two read routes `/api/download/<filename>`
    (app.py:333-352) and `/api/original/<filename>` (app.py:354-373).

    Everything the route does to the outside world is a parameter or a recorded effect: the
    library calls are fields of `Services`, the uuid and the timestamp are arguments, and the
    files the route saves, copies, removes and writes are an effect log whose replay gives the set
    of files present afterwards. */
module Simplify {
  import opened Results
  import opened Uploads
  import opened Naming
  import opened Document

  type Bytes = seq<bv8>

  /** The `file` part of the multipart request. */
  datatype Upload = Upload(filename: string)

  /** The parts of the request the route reads: the `file` part, if any, and the `format` field,
      if any. */
  datatype Request = Request(file: Option<Upload>, format: Option<string>)

  /** The outcome of the three checks at the top of the route. */
  datatype Validation =
    | NoFileUploaded
    | NoFileSelected
    | TypeNotAllowed
    | Accepted(filename: string, format: OutputFormat)

  /** The checks of app.py:257-269, in their order. The format field defaults to `html`. */
  function Validate(req: Request): (v: Validation)
    ensures v == NoFileUploaded <==> req.file.None?
    ensures v == NoFileSelected <==> req.file.Some? && req.file.value.filename == ""
    ensures v == TypeNotAllowed <==> req.file.Some? && req.file.value.filename != "" && !AllowedFile(req.file.value.filename)
    ensures v.Accepted? ==> req.file.Some? && v.filename == req.file.value.filename && AllowedFile(v.filename)
    ensures v.Accepted? ==> (v.format == Pdf <==> req.format == Some("pdf"))
  {
    match req.file
    case None => NoFileUploaded
    case Some(upload) =>
      if upload.filename == "" then NoFileSelected
      else if !AllowedFile(upload.filename) then TypeNotAllowed
      else Accepted(upload.filename, FormatOf(if req.format.Some? then req.format.value else "html"))
  }

  function RejectionMessage(v: Validation): string
    requires !v.Accepted?
  {
    match v
    case NoFileUploaded => "No file uploaded"
    case NoFileSelected => "No file selected"
    case TypeNotAllowed => "File type not allowed. Please upload PDF or TXT files."
  }

  const InsufficientTextMessage :=
    "Could not extract sufficient text from the file. Please ensure the file contains readable text."

  /** The prefix of the reply to any exception raised after validation. */
  const ErrorPrefix := "An error occurred: "

  /** The libraries and services the route calls. Each failing call yields `str(e)` of what it
      raised. */
  datatype Services = Services(
    sanitize: string -> string,                 // werkzeug `secure_filename`
    readPages: string -> Result<seq<string>>,   // the text of each page of the PDF at a path
    readUtf8: string -> Result<string>,         // the UTF-8 file at a path, read whole
    rewrite: string -> Result<string>,          // `simplify_paper_with_ai`
    renderPdf: string -> Result<Bytes>)         // WeasyPrint rendering of an HTML page

  /** What an output file holds. */
  datatype Artifact = HtmlText(html: string) | PdfBytes(bytes: Bytes)

  /** The filesystem effects of the route, in order. */
  datatype Effect =
    | Saved(path: string)                    // `file.save`
    | Copied(source: string, target: string) // `shutil.copy2`
    | Removed(path: string)                  // `os.remove`
    | Wrote(path: string, content: Artifact) // the output file

  /** The paths present after one effect. */
  function Apply(files: set<string>, e: Effect): set<string> {
    match e
    case Saved(p) => files + {p}
    case Copied(_, t) => files + {t}
    case Removed(p) => files - {p}
    case Wrote(p, _) => files + {p}
  }

  /** The paths present after the effects, starting from `files`. */
  function Replay(files: set<string>, effects: seq<Effect>): set<string>
    decreases |effects|
  {
    if effects == [] then files else Replay(Apply(files, effects[0]), effects[1..])
  }

  lemma ReplayTwo(files: set<string>, e1: Effect, e2: Effect)
    ensures Replay(files, [e1, e2]) == Apply(Apply(files, e1), e2)
  {
    assert [e1, e2][1..] == [e2];
    assert [e2][1..] == [];
    var f1 := Apply(files, e1);
    assert Replay(files, [e1, e2]) == Replay(f1, [e2]);
    assert Replay(f1, [e2]) == Replay(Apply(f1, e2), []);
  }

  lemma ReplayThree(files: set<string>, e1: Effect, e2: Effect, e3: Effect)
    ensures Replay(files, [e1, e2, e3]) == Apply(Apply(Apply(files, e1), e2), e3)
  {
    assert [e1, e2, e3][1..] == [e2, e3];
    ReplayTwo(Apply(files, e1), e2, e3);
  }

  /** The JSON body of a reply. */
  datatype Reply =
    | ErrorReply(message: string)
    | SimplifiedReply(filename: string, downloadUrl: string, originalPaperUrl: string)

  datatype Outcome = Outcome(status: int, reply: Reply, effects: seq<Effect>)

  function UploadPath(token: string, name: string): string {
    Join(UploadFolder, StoredName(token, name))
  }

  function ArchivePath(token: string, name: string): string {
    Join(ArchiveFolder, StoredName(token, name))
  }

  function OutputPath(output: string): string {
    Join(OutputFolder, output)
  }

  /** `generate_html_output`, or `generate_pdf_output` on the same page, as chosen by the format. */
  function Render(format: OutputFormat, html: string, renderPdf: string -> Result<Bytes>): (r: Result<Artifact>)
    ensures format == Html ==> r == Success(HtmlText(html))
    ensures format == Pdf ==> (r.Success? <==> renderPdf(html).Success?)
    ensures r.Success? && format == Pdf ==> r.value == PdfBytes(renderPdf(html).value)
    ensures r.Failure? ==> format == Pdf && r.error == renderPdf(html).error
  {
    match format
    case Html => Success(HtmlText(html))
    case Pdf =>
      match renderPdf(html)
      case Failure(e) => Failure(e)
      case Success(b) => Success(PdfBytes(b))
  }

  function Failed(e: string, effects: seq<Effect>): Outcome {
    Outcome(500, ErrorReply(ErrorPrefix + e), effects)
  }

  /** The page `generate_html_output` builds for a rewritten text, the sanitized name and the
      stored name, with the clock reading of the request fixed. */
  function PageBuilder(processed: string): (page: (string, string, string) -> string)
    ensures forall t, f, s :: page(t, f, s) == DocumentHtml(t, f, Some(s), processed)
  {
    (t, f, s) => DocumentHtml(t, f, Some(s), processed)
  }

  /** The route after validation has passed: save, archive, extract, gate, rewrite, render.
      `page(simplified, filename, stored)` is the page to publish. */
  function Process(raw: string, format: OutputFormat, uniqueId: string, svc: Services,
                   page: (string, string, string) -> string): (r: Outcome)
    ensures var u := UploadPath(uniqueId, svc.sanitize(raw));
      |r.effects| >= 2 && r.effects[..2] == [Saved(u), Copied(u, ArchivePath(uniqueId, svc.sanitize(raw)))]
    ensures r.status == 200 <==> r.reply.SimplifiedReply?
    ensures r.status == 400 ==> r.reply == ErrorReply(InsufficientTextMessage)
    ensures r.status != 200 && r.status != 400 ==> r.status == 500 && r.reply.ErrorReply?
    ensures |r.effects| == 2 <==> r.status == 500
    ensures |r.effects| <= 3
    ensures r.status == 400 ==> r.effects[2] == Removed(UploadPath(uniqueId, svc.sanitize(raw)))
    ensures r.status == 200 ==> r.effects[2].Wrote? && r.effects[2].path == OutputPath(r.reply.filename)
    ensures r.status != 500 ==>
      var f := svc.sanitize(raw);
      ExtractText(UploadPath(uniqueId, f), f, svc.readPages, svc.readUtf8).Success?
    ensures r.status == 500 ==> ErrorPrefix <= r.reply.message
    // The 500 reply echoes the error of the step that failed: extraction, rewrite or rendering.
    ensures var f := svc.sanitize(raw);
      var extracted := ExtractText(UploadPath(uniqueId, f), f, svc.readPages, svc.readUtf8);
      && (extracted.Failure? ==> r.reply == ErrorReply(ErrorPrefix + extracted.error))
      && (extracted.Success? && !Insufficient(extracted.value) ==>
            var rewritten := svc.rewrite(extracted.value);
            && (rewritten.Failure? ==> r.reply == ErrorReply(ErrorPrefix + rewritten.error))
            && (rewritten.Success? ==>
                  var rendered := Render(format, page(rewritten.value, f, StoredName(uniqueId, f)), svc.renderPdf);
                  rendered.Failure? ==> r.reply == ErrorReply(ErrorPrefix + rendered.error)))
  {
    var filename := svc.sanitize(raw);
    var stored := StoredName(uniqueId, filename);
    var upload := Join(UploadFolder, stored);
    var saved := [Saved(upload), Copied(upload, Join(ArchiveFolder, stored))];
    match ExtractText(upload, filename, svc.readPages, svc.readUtf8)
    case Failure(e) => Failed(e, saved)
    case Success(text) =>
      if Insufficient(text) then
        Outcome(400, ErrorReply(InsufficientTextMessage), saved + [Removed(upload)])
      else
        match svc.rewrite(text)
        case Failure(e) => Failed(e, saved)
        case Success(simplified) =>
          var output := OutputName(uniqueId, Stem(filename), format);
          match Render(format, page(simplified, filename, stored), svc.renderPdf)
          case Failure(e) => Failed(e, saved)
          case Success(artifact) =>
            Outcome(200, SimplifiedReply(output, DownloadUrl(output), OriginalPaperUrl(stored)),
                    saved + [Wrote(OutputPath(output), artifact)])
  }

  /** The whole route. A rejected request gets 400 with its message and touches no file; an
      accepted one always saves the upload and archives a copy first. */
  function Simplify(req: Request, uniqueId: string, processed: string, svc: Services): (r: Outcome)
    ensures r.effects == [] <==> !Validate(req).Accepted?
    ensures !Validate(req).Accepted? ==> r.status == 400 && r.reply == ErrorReply(RejectionMessage(Validate(req)))
    ensures Validate(req).Accepted? ==>
      var v := Validate(req);
      r == Process(v.filename, v.format, uniqueId, svc, PageBuilder(processed))
  {
    match Validate(req)
    case Accepted(raw, format) => Process(raw, format, uniqueId, svc, PageBuilder(processed))
    case v => Outcome(400, ErrorReply(RejectionMessage(v)), [])
  }

  /** What a read route answers. */
  datatype RouteReply =
    | NotFound                                                  // 404 `File not found`
    | SendFile(path: string, mime: string, attachmentName: Option<string>)

  /** `download`: the output file, as an attachment, typed by its suffix. */
  function Download(filename: string, files: set<string>): (r: RouteReply)
    ensures r.NotFound? <==> OutputPath(filename) !in files
    ensures r.SendFile? ==> r.path == OutputPath(filename) && r.mime == DownloadMime(filename)
                            && r.attachmentName == Some(filename)
  {
    var path := OutputPath(filename);
    if path !in files then NotFound else SendFile(path, DownloadMime(filename), Some(filename))
  }

  /** `serve_original`: the archived upload, inline, typed by its suffix. The suffix test here is
      the case-insensitive one the route evidently intends (`OriginalMimeIntended`); the
      case-sensitive test as written is `OriginalMime`. */
  function ServeOriginal(filename: string, files: set<string>): (r: RouteReply)
    ensures r.NotFound? <==> Join(ArchiveFolder, filename) !in files
    ensures r.SendFile? ==> r.path == Join(ArchiveFolder, filename) && r.mime == OriginalMimeIntended(filename)
                            && r.attachmentName == None
  {
    var path := Join(ArchiveFolder, filename);
    if path !in files then NotFound else SendFile(path, OriginalMimeIntended(filename), None)
  }

  /** The working copy and the archive copy have different paths: the token starts every stored
      name with a hex digit, so neither join can be taken over by an absolute name, and the two
      folder names differ in length. */
  lemma PathsDiffer(token: string, name: string)
    requires IsUuidText(token)
    ensures UploadPath(token, name) == UploadFolder + "/" + StoredName(token, name)
    ensures ArchivePath(token, name) == ArchiveFolder + "/" + StoredName(token, name)
    ensures UploadPath(token, name) != ArchivePath(token, name)
  {
    var stored := StoredName(token, name);
    assert stored[0] == token[0];
    assert UploadFolder[|UploadFolder| - 1] == 's';
    assert ArchiveFolder[|ArchiveFolder| - 1] == 's';
    assert |UploadFolder| != |ArchiveFolder|;
  }

  /** The files present after the effect log of an accepted request, by how it ended. */
  lemma RouteFiles(before: set<string>, u: string, a: string, e: seq<Effect>, status: int, out: string)
    requires u != a
    requires 2 <= |e| <= 3 && e[..2] == [Saved(u), Copied(u, a)]
    requires status == 200 || status == 400 || status == 500
    requires |e| == 2 <==> status == 500
    requires status == 400 ==> e[2] == Removed(u)
    requires status == 200 ==> e[2].Wrote? && e[2].path == out
    ensures var files := Replay(before, e);
      && a in files
      && (u in files <==> status != 400)
      && (status == 200 ==> out in files)
      && forall p :: p != u && p != a && (status == 200 ==> p != out) ==> (p in files <==> p in before)
  {
    if |e| == 2 {
      assert e == [Saved(u), Copied(u, a)];
      ReplayTwo(before, Saved(u), Copied(u, a));
    } else {
      assert e == [Saved(u), Copied(u, a), e[2]];
      ReplayThree(before, Saved(u), Copied(u, a), e[2]);
    }
  }

  /** The files present after an accepted request, by how it ended: the archive copy is always
      there; the working copy is gone exactly when the text was rejected as insufficient; a
      success adds the output file; and no other path changes. */
  lemma ProcessFiles(raw: string, format: OutputFormat, uniqueId: string, svc: Services,
                     page: (string, string, string) -> string, before: set<string>)
    requires IsUuidText(uniqueId)
    ensures var f := svc.sanitize(raw);
      var u, a := UploadPath(uniqueId, f), ArchivePath(uniqueId, f);
      var r := Process(raw, format, uniqueId, svc, page);
      var files := Replay(before, r.effects);
      && a in files
      && (u in files <==> r.status != 400)
      && (r.status == 200 ==> OutputPath(r.reply.filename) in files)
      && forall p :: p != u && p != a && (r.status == 200 ==> p != OutputPath(r.reply.filename)) ==>
           (p in files <==> p in before)
  {
    var f := svc.sanitize(raw);
    PathsDiffer(uniqueId, f);
    var r := Process(raw, format, uniqueId, svc, page);
    var out := if r.reply.SimplifiedReply? then OutputPath(r.reply.filename) else "";
    RouteFiles(before, UploadPath(uniqueId, f), ArchivePath(uniqueId, f), r.effects, r.status, out);
  }

  /** Once text is extracted, the gate alone decides the 400 reply: it is sent exactly for the
      texts `Insufficient` rejects. */
  lemma InsufficientTextRejected(raw: string, format: OutputFormat, uniqueId: string, svc: Services,
                                 page: (string, string, string) -> string, text: string)
    requires var f := svc.sanitize(raw);
      ExtractText(UploadPath(uniqueId, f), f, svc.readPages, svc.readUtf8) == Success(text)
    ensures var r := Process(raw, format, uniqueId, svc, page);
      r.status == 400 <==> Insufficient(text)
  {
  }

  /** `secure_filename` may drop the only dot of an accepted name (it strips leading dots, so
      `.pdf` becomes `pdf`); the suffix split then raises, and the reply is a 500 carrying the
      IndexError text. */
  lemma SanitizedNameWithoutDot(raw: string, format: OutputFormat, uniqueId: string, svc: Services,
                                page: (string, string, string) -> string)
    requires '.' !in svc.sanitize(raw)
    ensures var r := Process(raw, format, uniqueId, svc, page);
      r.status == 500 && r.reply == ErrorReply(ErrorPrefix + IndexErrorMessage)
  {
  }

  /** After a success, everything in the reply leads back to this request: the output name
      parses into the request's token, stem and format; the download URL hands the route that
      name; the download route finds the file and types it by the format; and the original-paper
      URL names the archive copy, which the original-paper route finds. */
  lemma SuccessIsTraceable(raw: string, format: OutputFormat, uniqueId: string, svc: Services,
                           page: (string, string, string) -> string, before: set<string>)
    requires IsUuidText(uniqueId)
    requires Process(raw, format, uniqueId, svc, page).status == 200
    ensures var f := svc.sanitize(raw);
      var stored := StoredName(uniqueId, f);
      var r := Process(raw, format, uniqueId, svc, page);
      var files := Replay(before, r.effects);
      var out := r.reply.filename;
      && ParseOutputName(out) == Some(OutputParts(uniqueId, Stem(f), format))
      && ('/' !in f ==> RouteFilename(r.reply.downloadUrl) == Some(out))
      && Download(out, files)
         == SendFile(OutputPath(out), if format == Pdf then "application/pdf" else "text/html", Some(out))
      && r.reply.originalPaperUrl == ArchiveBaseUrl + stored
      && StoredToken(stored) == uniqueId
      && ServeOriginal(stored, files).SendFile?
      && (ServeOriginal(stored, files).mime == "application/pdf" <==> Dispatch(f) == PdfPages)
  {
    var f := svc.sanitize(raw);
    var r := Process(raw, format, uniqueId, svc, page);
    ProcessFiles(raw, format, uniqueId, svc, page, before);
    assert r.reply.filename == OutputName(uniqueId, Stem(f), format);
    ParseOutputNameRoundTrip(uniqueId, Stem(f), format);
    SameTokenEverywhere(uniqueId, f, format);
    DownloadMimeFollowsFormat(uniqueId, Stem(f), format);
    OriginalMimeIntendedAgreesWithDispatch(uniqueId, f);
  }

  /** Once the rewrite has produced `simplified`, the outcome turns only on the renderer: an HTML
      request always succeeds and stores the page itself, a PDF request succeeds exactly when
      rendering that page does and stores the rendered bytes. */
  lemma RenderedPage(raw: string, format: OutputFormat, uniqueId: string, svc: Services,
                     page: (string, string, string) -> string, text: string, simplified: string)
    requires var f := svc.sanitize(raw);
      ExtractText(UploadPath(uniqueId, f), f, svc.readPages, svc.readUtf8) == Success(text)
    requires !Insufficient(text)
    requires svc.rewrite(text) == Success(simplified)
    ensures var f := svc.sanitize(raw);
      var html := page(simplified, f, StoredName(uniqueId, f));
      var r := Process(raw, format, uniqueId, svc, page);
      && (r.status == 200 <==> format == Html || svc.renderPdf(html).Success?)
      && (r.status == 200 ==>
            r.effects[2].content == (if format == Html then HtmlText(html) else PdfBytes(svc.renderPdf(html).value)))
  {
  }

  /** The page the route publishes links to the archive copy at the very URL the reply returns:
      the stored name is never empty, so the fallback to the bare upload name is never taken. */
  lemma PageLinksToArchivedCopy(processed: string, simplified: string, f: string, uniqueId: string)
    ensures var stored := StoredName(uniqueId, f);
      PageBuilder(processed)(simplified, f, stored)
        == LinkPrefix(f, processed) + OriginalPaperUrl(stored) + DocContentOpen + BodyHtml(simplified) + DocFooter
  {
    var stored := StoredName(uniqueId, f);
    assert |stored| > 0;
    PageLinkNamed(simplified, f, stored, processed);
  }
}

=== FILE: strings.dfy ===
/** The handful of Python `str` operations the application relies on, over `seq<char>`. */
module Strings {
  import opened Results

  /** Python's `str.isspace()`; it is also the class `\s` matches in a `str` pattern of `re`. */
  predicate IsSpace(c: char) {
    || ('\t' <= c <= '\r')
    || ('\U{1C}' <= c <= '\U{1F}')
    || c == ' ' || c == '\U{85}' || c == '\U{A0}' || c == '\U{1680}'
    || ('\U{2000}' <= c <= '\U{200A}')
    || c == '\U{2028}' || c == '\U{2029}' || c == '\U{202F}' || c == '\U{205F}' || c == '\U{3000}'
  }

  /** Lower-cases the ASCII letters and leaves every other character alone. */
  function LowerChar(c: char): char {
    if 'A' <= c <= 'Z' then (c as int - 'A' as int + 'a' as int) as char else c
  }

  /** `s.lower()` restricted to ASCII letters (see the README for why this is enough here). */
  function Lower(s: string): (r: string)
    ensures |r| == |s|
  {
    seq(|s|, i requires 0 <= i < |s| => LowerChar(s[i]))
  }

  /** `s.endswith(suffix)`. */
  predicate EndsWith(s: string, suffix: string) {
    |suffix| <= |s| && s[|s| - |suffix|..] == suffix
  }

  /** The index of the last occurrence of `c` in `s`, if any. */
  function LastIndexOf(s: string, c: char): (r: Option<nat>)
    ensures r.None? <==> c !in s
    ensures r.Some? ==> r.value < |s| && s[r.value] == c
    ensures r.Some? ==> forall j :: r.value < j < |s| ==> s[j] != c
  {
    if |s| == 0 then None
    else if s[|s| - 1] == c then Some(|s| - 1)
    else
      var r := LastIndexOf(s[..|s| - 1], c);
      assert c !in s[..|s| - 1] ==> c !in s by {
        if c in s {
          var j :| 0 <= j < |s| && s[j] == c;
          assert j < |s| - 1 && s[..|s| - 1][j] == c;
        }
      }
      r
  }

  /** `s.rsplit(sep, 1)`: the whole of `s` when `sep` does not occur, otherwise the text
      before and the text after its last occurrence. */
  function RSplitOnce(s: string, sep: char): (parts: seq<string>)
    ensures |parts| == 1 || |parts| == 2
    ensures |parts| == 1 <==> sep !in s
    ensures |parts| == 1 ==> parts[0] == s
    ensures |parts| == 2 ==> s == parts[0] + [sep] + parts[1] && sep !in parts[1]
  {
    match LastIndexOf(s, sep)
    case None => [s]
    case Some(k) =>
      assert s == s[..k] + [sep] + s[k + 1..];
      [s[..k], s[k + 1..]]
  }

  /** Splitting `a + sep + e` on its last `sep` gives back `a` and `e` whenever `e` holds no `sep`:
      only the final suffix is ever taken. */
  lemma RSplitOnceOfJoin(a: string, sep: char, e: string)
    requires sep !in e
    ensures RSplitOnce(a + [sep] + e, sep) == [a, e]
  {
    var s := a + [sep] + e;
    assert s[|a|] == sep;
    var parts := RSplitOnce(s, sep);
    assert |parts| == 2;
    var k := |parts[0]|;
    assert s[k] == sep;
    assert k == |a|;
    assert parts[0] == s[..k] == a;
    assert parts[1] == s[k + 1..] == e;
  }

  /** The length of the leading whitespace run of `s`: what `s.lstrip()` drops, and what `\s*`
      matches greedily at the start of `s`. */
  function SpaceRun(s: string): (n: nat)
    ensures n <= |s|
    ensures forall i :: 0 <= i < n ==> IsSpace(s[i])
    ensures n < |s| ==> !IsSpace(s[n])
  {
    if s != [] && IsSpace(s[0]) then 1 + SpaceRun(s[1..]) else 0
  }

  /** The length of the trailing whitespace run of `s`: what `s.rstrip()` drops. */
  function TrailingSpaceRun(s: string): (n: nat)
    ensures n <= |s|
    ensures forall i :: |s| - n <= i < |s| ==> IsSpace(s[i])
    ensures n < |s| ==> !IsSpace(s[|s| - 1 - n])
  {
    if s != [] && IsSpace(s[|s| - 1]) then 1 + TrailingSpaceRun(s[..|s| - 1]) else 0
  }

  /** Where the text kept by `s.strip()` starts. */
  function StripStart(s: string): nat {
    SpaceRun(s)
  }

  /** Where the text kept by `s.strip()` ends: `rstrip` applied to what `lstrip` left. */
  function StripEnd(s: string): (e: nat)
    ensures StripStart(s) <= e <= |s|
  {
    |s| - TrailingSpaceRun(s[StripStart(s)..])
  }

  lemma StripEndFacts(s: string)
    ensures forall i :: StripEnd(s) <= i < |s| ==> IsSpace(s[i])
    ensures StripStart(s) < StripEnd(s) ==> !IsSpace(s[StripEnd(s) - 1])
  {
    var a, e := StripStart(s), StripEnd(s);
    var t := s[a..];
    var n := TrailingSpaceRun(t);
    forall i | e <= i < |s|
      ensures IsSpace(s[i])
    {
      assert s[i] == t[i - a];
    }
    if a < e {
      assert s[e - 1] == t[|t| - 1 - n];
    }
  }

  /** `s.strip()`: the slice of `s` between its outer whitespace runs. It is empty exactly when
      `s` is all whitespace, and otherwise starts and ends with a visible character. */
  function Strip(s: string): (r: string)
    ensures StripStart(s) + |r| <= |s| && r == s[StripStart(s)..StripStart(s) + |r|]
    ensures forall i :: 0 <= i < StripStart(s) ==> IsSpace(s[i])
    ensures forall i :: StripStart(s) + |r| <= i < |s| ==> IsSpace(s[i])
    ensures r != [] ==> !IsSpace(r[0]) && !IsSpace(r[|r| - 1])
  {
    StripEndFacts(s);
    s[StripStart(s)..StripEnd(s)]
  }

  /** How many characters of `s` are not whitespace. */
  function NonSpaceCount(s: string): nat {
    if s == [] then 0 else (if IsSpace(s[0]) then 0 else 1) + NonSpaceCount(s[1..])
  }

  lemma {:induction false} NonSpaceCountAppend(a: string, b: string)
    ensures NonSpaceCount(a + b) == NonSpaceCount(a) + NonSpaceCount(b)
  {
    if a == [] {
      assert a + b == b;
    } else {
      assert (a + b)[1..] == a[1..] + b;
      NonSpaceCountAppend(a[1..], b);
    }
  }

  lemma {:induction false} NonSpaceCountAllSpace(s: string)
    requires forall i :: 0 <= i < |s| ==> IsSpace(s[i])
    ensures NonSpaceCount(s) == 0
  {
    if s != [] {
      NonSpaceCountAllSpace(s[1..]);
    }
  }

  lemma {:induction false} NonSpaceCountAtMostLength(s: string)
    ensures NonSpaceCount(s) <= |s|
  {
    if s != [] {
      NonSpaceCountAtMostLength(s[1..]);
    }
  }

  lemma SplitThree(s: string, a: nat, b: nat)
    requires a <= b <= |s|
    ensures s == s[..a] + s[a..b] + s[b..]
  {
  }

  /** Stripping removes only whitespace, so it keeps every non-whitespace character:
      the stripped text is at least as long as the count of non-whitespace characters. */
  lemma NonSpaceCountBelowStripped(s: string)
    ensures NonSpaceCount(s) == NonSpaceCount(Strip(s)) <= |Strip(s)|
  {
    var r := Strip(s);
    var a := StripStart(s);
    var b := a + |r|;
    var pre, post := s[..a], s[b..];
    SplitThree(s, a, b);
    assert NonSpaceCount(pre) == 0 by {
      forall i | 0 <= i < |pre|
        ensures IsSpace(pre[i])
      {
        assert pre[i] == s[i];
      }
      NonSpaceCountAllSpace(pre);
    }
    assert NonSpaceCount(post) == 0 by {
      forall i | 0 <= i < |post|
        ensures IsSpace(post[i])
      {
        assert post[i] == s[b + i];
      }
      NonSpaceCountAllSpace(post);
    }
    assert NonSpaceCount(s) == NonSpaceCount(r) by {
      NonSpaceCountAppend(pre, r);
      NonSpaceCountAppend(pre + r, post);
    }
    NonSpaceCountAtMostLength(r);
  }

  /** Putting the first element back in front of the rest rebuilds the sequence. */
  lemma ConsAppend(g: string, w: string)
    requires g != []
    ensures [g[0]] + (g[1..] + w) == g + w
  {
    assert [g[0]] + g[1..] == g;
  }
}

=== FILE: uploads.dfy ===
/** Upload validation, extractor dispatch and the text-sufficiency gate (app.py:27-60, 288). */
module Uploads {
  import opened Results
  import opened Strings

  /** `ALLOWED_EXTENSIONS`. */
  const AllowedExtensions: set<string> := {"pdf", "txt"}

  /** The floor on the stripped length of the extracted text. */
  const MinTextLength := 100

  /** `allowed_file`: the name holds a `.` and the text after its last `.`, lower-cased, is
      whitelisted. */
  predicate AllowedFile(filename: string) {
    '.' in filename && Lower(RSplitOnce(filename, '.')[1]) in AllowedExtensions
  }

  /** Only the final suffix counts: a name made of any prefix, a dot and a dot-free suffix is
      accepted exactly when that suffix, lower-cased, is `pdf` or `txt`. Together with
      `AllowedFileNeedsDot` this pins `AllowedFile` down on every name. */
  lemma AllowedFileFinalSuffix(prefix: string, suffix: string)
    requires '.' !in suffix
    ensures AllowedFile(prefix + ['.'] + suffix) <==> Lower(suffix) in AllowedExtensions
  {
    RSplitOnceOfJoin(prefix, '.', suffix);
  }

  lemma AllowedFileNeedsDot(filename: string)
    requires '.' !in filename
    ensures !AllowedFile(filename)
  {
  }

  lemma AllowedFileIgnoresCase()
    ensures AllowedFile("A.PDF")
  {
    AllowedFileFinalSuffix("A", "PDF");
    assert "A.PDF" == "A" + ['.'] + "PDF";
    assert Lower("PDF") == "pdf";
  }

  lemma AllowedFileLastSuffixAccepted()
    ensures AllowedFile("a.exe.txt")
  {
    AllowedFileFinalSuffix("a.exe", "txt");
    assert "a.exe.txt" == "a.exe" + ['.'] + "txt";
    assert Lower("txt") == "txt";
  }

  lemma AllowedFileEarlierSuffixIgnored()
    ensures !AllowedFile("a.txt.exe")
  {
    AllowedFileFinalSuffix("a.txt", "exe");
    assert "a.txt.exe" == "a.txt" + ['.'] + "exe";
    assert Lower("exe") == "exe";
  }

  /** The branch `extract_text_from_file` takes for a filename. */
  datatype Extractor =
    | PdfPages                       // `extract_text_from_pdf`
    | Utf8Read                       // `open(..., encoding='utf-8').read()`
    | Unsupported(ext: string)       // `raise ValueError`
    | MissingExtension               // `rsplit('.', 1)[1]` raises IndexError

  /** Dispatch on the lower-cased final suffix. Its error branch is reachable only for names that
      `allowed_file` would have refused. */
  function Dispatch(filename: string): (r: Extractor)
    ensures r.MissingExtension? <==> '.' !in filename
    ensures r.PdfPages? || r.Utf8Read? <==> AllowedFile(filename)
    ensures r.Unsupported? ==> r.ext !in AllowedExtensions
    ensures '.' in filename ==>
      var ext := Lower(RSplitOnce(filename, '.')[1]);
      && (r.PdfPages? <==> ext == "pdf")
      && (r.Utf8Read? <==> ext == "txt")
      && (r.Unsupported? ==> r.ext == ext)
  {
    if '.' !in filename then MissingExtension
    else
      var ext := Lower(RSplitOnce(filename, '.')[1]);
      if ext == "pdf" then PdfPages
      else if ext == "txt" then Utf8Read
      else Unsupported(ext)
  }

  /** `extract_text_from_pdf`: every page's text followed by a newline, in page order. */
  function PdfText(pages: seq<string>): string {
    if pages == [] then "" else pages[0] + "\n" + PdfText(pages[1..])
  }

  /** Adding a page at the end appends its text and a newline. */
  lemma {:induction false} PdfTextAppend(pages: seq<string>, page: string)
    ensures PdfText(pages + [page]) == PdfText(pages) + page + "\n"
    decreases |pages|
  {
    if pages == [] {
      assert pages + [page] == [page];
      assert PdfText([page]) == page + "\n" + PdfText([]);
    } else {
      assert (pages + [page])[0] == pages[0];
      assert (pages + [page])[1..] == pages[1..] + [page];
      PdfTextAppend(pages[1..], page);
    }
  }

  /** The accumulation loop of `extract_text_from_pdf`, page by page: it builds exactly
      `PdfText(pages)`. */
  method ExtractPdfText(pages: seq<string>) returns (text: string)
    ensures text == PdfText(pages)
  {
    text := "";
    var i := 0;
    while i < |pages|
      invariant 0 <= i <= |pages|
      invariant text == PdfText(pages[..i])
    {
      PdfTextAppend(pages[..i], pages[i]);
      assert pages[..i + 1] == pages[..i] + [pages[i]];
      text := text + pages[i] + "\n";
      i := i + 1;
    }
    assert pages[..i] == pages;
  }

  /** `str(e)` of the IndexError raised by `rsplit('.', 1)[1]` on a name without a dot. */
  const IndexErrorMessage := "list index out of range"

  /** `extract_text_from_file(path, filename)`. The page reader (pypdf) and the UTF-8 file read are
      passed in; each returns the text or `str(e)` of what it raised. */
  function ExtractText(path: string, filename: string,
                       readPages: string -> Result<seq<string>>,
                       readUtf8: string -> Result<string>): (r: Result<string>)
    ensures r.Success? ==> AllowedFile(filename)
    ensures '.' !in filename ==> r == Failure(IndexErrorMessage)
    ensures Dispatch(filename).Utf8Read? ==> r == readUtf8(path)
    ensures Dispatch(filename).PdfPages? && readPages(path).Failure? ==> r == Failure(readPages(path).error)
    ensures Dispatch(filename).PdfPages? && readPages(path).Success? ==> r == Success(PdfText(readPages(path).value))
    ensures Dispatch(filename).Unsupported? ==> r == Failure("Unsupported file type: " + Dispatch(filename).ext)
  {
    match Dispatch(filename)
    case MissingExtension => Failure(IndexErrorMessage)
    case Unsupported(ext) => Failure("Unsupported file type: " + ext)
    case Utf8Read => readUtf8(path)
    case PdfPages =>
      match readPages(path)
      case Failure(e) => Failure(e)
      case Success(pages) => Success(PdfText(pages))
  }

  /** The rejection test of app.py:288: no text at all, or under the floor once stripped. */
  predicate Insufficient(text: string) {
    text == "" || |Strip(text)| < MinTextLength
  }

  /** The gate rejects exactly the texts whose stripped length is below the floor: the emptiness
      test is subsumed. A text with at least that many non-whitespace characters always passes. */
  lemma InsufficientExactly(text: string)
    ensures Insufficient(text) <==> |Strip(text)| < MinTextLength
    ensures NonSpaceCount(text) >= MinTextLength ==> !Insufficient(text)
  {
    NonSpaceCountBelowStripped(text);
  }

  /** Whitespace between the first and last visible characters counts toward the floor: two
      visible characters separated by 98 spaces pass the gate. */
  lemma InteriorWhitespaceCounts()
    ensures var text := "a" + seq(98, _ => ' ') + "b";
      NonSpaceCount(text) == 2 && !Insufficient(text)
  {
    var gap: string := seq(98, _ => ' ');
    var text := "a" + gap + "b";
    assert SpaceRun(text) == 0 && text[0..] == text;
    assert TrailingSpaceRun(text) == 0;
    assert Strip(text) == text;
    NonSpaceCountAllSpace(gap);
    NonSpaceCountAppend("a" + gap, "b");
    NonSpaceCountAppend("a", gap);
  }

  lemma {:induction false} BlankPagesGiveBlankText(pages: seq<string>)
    requires forall i :: 0 <= i < |pages| ==> NonSpaceCount(pages[i]) == 0
    ensures NonSpaceCount(PdfText(pages)) == 0
  {
    if pages != [] {
      BlankPagesGiveBlankText(pages[1..]);
      NonSpaceCountAppend(pages[0], "\n");
      NonSpaceCountAppend(pages[0] + "\n", PdfText(pages[1..]));
    }
  }

  /** A PDF whose pages yield only whitespace (scanned images, say) is always rejected by the
      gate, however many pages it has. */
  lemma BlankPdfIsInsufficient(pages: seq<string>)
    requires forall i :: 0 <= i < |pages| ==> NonSpaceCount(pages[i]) == 0
    ensures Insufficient(PdfText(pages))
  {
    var text := PdfText(pages);
    BlankPagesGiveBlankText(pages);
    NonSpaceCountBelowStripped(text);
  }
}
